=== FILE: README.md ===
# maze-generator core, modelled in Dafny

This project models the sequential logic under the SDL front end of the maze
game:

- the maze grid. It is a row-major array of one wall-mask byte per cell, with
  the `isInMaze` bounds test and the `index` layout.
- the randomized depth-first generator `generateMaze`, which is a recursive
  backtracker;
- player movement with wall collisions, `movePlayer`;
- the binary maze file written by `saveMazeToFile` and read by
  `loadMazeFromFile`;
- the session glue: the constructor's initial state and `initialize`;
- `readSettingsCSV`, the parser for the settings file.

Modules follow the program:

| file | module | models |
|---|---|---|
| optional.dfy | `Optional` | the `Option` type used for absent results |
| directions.dfy | `Directions` | the `Direction` enum and the `dx`, `dy`, `opposite` tables of `src/game.h` |
| grid.dfy | `MazeGrid` | the grid, `isInMaze`, `index`, and carving one passage |
| generator.dfy | `Generator` | `generateMaze` |
| collision.dfy | `Collision` | `Player`, `WALL_THICKNESS`, `movePlayer` |
| codec.dfy | `Codec` | the maze file layout, save and load |
| session.dfy | `Session` | `Game::Game`, `initialize`, repeated `movePlayer` calls |
| settings.dfy | `Settings` | `readSettingsCSV` |

## How the model is built

- **Randomness.** Randomness is an input to the model.
  - `std::shuffle` becomes an argument `order` that holds, for each cell, the list of directions its `generateMaze` frame loops over.
  - Each cell's frame runs at most once, so one list per cell is enough.
  - `Shuffles(order)` says every list is a permutation of the four directions.
  - The two `rng()` draws of `initialize` are natural-number arguments.
- **The generator.** The generator is three mutually recursive functions, all of them pure:
  - `Generate` models one frame;
  - `Carve` models its loop over the remaining directions;
  - `TryDirection` models one iteration.
  - Termination is by the number of zero cells, then the number of directions left.
  - The properties are proved by lemma triples that follow the same recursion.
- **Movement.** Positions are `real`.
  - The C++ `(int)` conversion is modelled as truncation toward zero (`TruncToInt`), as the source writes it. On the coordinates the clamp produces, truncation and floor agree (`ClampedCellIsFloor`). The only negative coordinate the clamp yields is `-1`, in a one-pixel window, and both give `-1` there.
  - Both axes read the mask of the cell the player was in before the move, as the source does.
- **Files.** A file is `Option<seq<bv8>>`, where `None` means the file cannot be opened. An `int` is four bytes, least significant first.
- **Settings.** The settings file is the list of lines `getline` returns, or `None` when the file cannot be opened.

Notes on the source:

- The comment at `src/game.cpp:184` speaks of 2-byte integers. The code writes `sizeof(int)` bytes, so the header is two 4-byte integers.
- The cell index is `(int)(newX / cellSize)`, a truncation toward zero. The model truncates and proves that this equals the floor on every clamped coordinate (`ClampedCellIsFloor`).
- `loadMazeFromFile` overwrites `mazeWidth` and `mazeHeight` and then reads into the buffer allocated for the old dimensions. The model accepts a file only when its dimensions equal the allocated ones; see "Left out".

## Model

| member | source | states |
|---|---|---|
| Directions.EnumIsOneHot | src/game.h:59-64 | `DIR_TOP`, `DIR_RIGHT`, `DIR_BOTTOM` and `DIR_LEFT` are the bits of directions 0 to 3. They are pairwise disjoint and non-zero, each lies within the low four bits, and their union is exactly `0x0F`. |
| Directions.BitIsShift | src/game.cpp:63 | The enum bit of each direction is the `1 << dir` that the generator sets on the current cell. |
| Directions.OppositeIsFlippedBit | src/game.h:68 | `opposite[d]` is the bit of direction `(d + 2) % 4`. That flip is an involution and never maps a direction to itself. |
| Directions.FlipNegatesOffset | src/game.h:66-67 | The offsets of a direction and of its opposite are negations of each other, so the two moves are inverse. |
| Directions.UnitSteps | src/game.h:66-67 | Exactly one of `dx[d]` and `dy[d]` is non-zero, and it has magnitude 1. Distinct directions have distinct offsets, so adjacency is 4-neighbour. |
| Directions.NamesMatchOffsets | src/game.h:60-67 | TOP is `dy = -1`, RIGHT is `dx = +1`, BOTTOM is `dy = +1` and LEFT is `dx = -1`. This is the orientation `movePlayer` assumes. |
| MazeGrid.Empty | src/game.cpp:17-18 | The freshly allocated grid has the requested dimensions, one mask per cell, and every mask is 0. |
| MazeGrid.InMaze | src/game.cpp:41-44 | The `isInMaze` test: both coordinates lie in `[0, width)` and `[0, height)`. `Index` and `Coords` state that exactly these cells map one-to-one onto the array positions. |
| MazeGrid.EmptyMutual | src/game.cpp:17-18 | The all-zero grid satisfies the mutual-opening invariant, and all its masks lie within the four direction bits. |
| MazeGrid.Index | src/game.cpp:47-50 | `x + width * y` lies in `[0, width * height)` for every cell that `isInMaze` accepts. |
| MazeGrid.IndexInverse | src/game.cpp:47-50 | The cell is recovered from its position as `position % width` and `position / width`. |
| MazeGrid.Coords | src/game.cpp:47-50 | Every array position is the index of some in-maze cell, so the layout is onto. |
| MazeGrid.IndexInjective | src/game.cpp:47-50 | Two in-maze cells have the same index exactly when they are the same cell, so the layout is one-to-one. |
| MazeGrid.OpenPassage | src/game.cpp:63-64 | Carving one passage keeps the grid well formed, keeps its dimensions, and only ever sets bits. |
| MazeGrid.AtOpenPassage | src/game.cpp:63-64 | Carving gives the current cell the direction bit and the neighbour the `opposite` bit. Every other cell is unchanged. |
| MazeGrid.OpenPassageOpens | src/game.cpp:63-64 | After carving, the cell is open towards the neighbour, the neighbour is open back, and both are non-zero. |
| MazeGrid.OpenPassageElsewhere | src/game.cpp:63-64 | Carving changes no cell other than the two ends of the passage. |
| MazeGrid.OpensAfterOpenPassage | src/game.cpp:63-64 | After carving, a side is open exactly when it was open before or is one of the two sides of the new passage. |
| MazeGrid.OpenPassageKeepsMutual | src/game.cpp:63-64 | Carving keeps the invariant that a side is open exactly when the neighbour on that side is in the maze and open back. |
| MazeGrid.OpenPassageKeepsFourBit | src/game.cpp:63-64 | Carving keeps every mask within the four direction bits. |
| MazeGrid.OpenPassageCounts | src/game.cpp:62-64 | A carve towards an unvisited neighbour adds exactly two open sides. It lowers the number of zero cells by one, or by two when the current cell was still zero. |
| MazeGrid.OpenPassageVisits | src/game.cpp:62-65 | Entering an unvisited neighbour strictly lowers the number of zero cells. This is the generator's termination measure. |
| Generator.Generate | src/game.cpp:53-68 | A `generateMaze` frame keeps the grid well formed and its dimensions unchanged, and never clears a bit. |
| Generator.Carve | src/game.cpp:58-67 | The loop over the remaining directions keeps the grid well formed and never clears a bit. |
| Generator.TryDirection | src/game.cpp:59-66 | One loop iteration keeps the grid well formed and never clears a bit. |
| Generator.TryEnter | src/game.cpp:62-65 | When the neighbour is in the maze and still zero, the iteration is the neighbour's frame on the grid with the passage carved. That grid has strictly fewer zero cells. |
| Generator.GenerateKeepsMutual | src/game.cpp:62-65 | Generation preserves mutual openings. No side is ever opened onto the border or onto a neighbour that is not open back. |
| Generator.GenerateKeepsFourBit | src/game.cpp:62-65 | Generation never sets a bit outside the four direction bits. |
| Generator.TryVisitsNeighbour | src/game.cpp:59-66 | After the iteration in direction `d`, the in-maze neighbour in that direction is non-zero. |
| Generator.CarveVisitsNeighbours | src/game.cpp:58-67 | After the loop over a list of directions, every in-maze neighbour in one of those directions is non-zero. |
| Generator.GenerateCloses | src/game.cpp:55-67 | A frame given a permutation of the four directions leaves every in-maze neighbour of its cell visited. |
| Generator.GenerateClosesVisited | src/game.cpp:53-68 | Every cell that a frame visits, including its start, ends with all its in-maze neighbours visited. |
| Generator.GenerateBalances | src/game.cpp:53-68 | Each carve adds two open sides and visits one new cell. So open sides plus twice the unvisited cells other than the start is the same before and after a frame. |
| Generator.GenerateReaches | src/game.cpp:53-68 | Every cell that a frame visits is reachable from the frame's start through open passages. |
| Generator.SpreadTo | src/game.cpp:41-44 | If every visited cell and the start have all their in-maze neighbours visited, then every in-maze cell other than the start is visited. |
| Generator.GenerateVisitsOthers | src/game.cpp:53-68 | Generating from an all-zero grid leaves every cell other than the start non-zero. |
| Generator.GenerateVisitsStart | src/game.cpp:62-63 | With at least two cells, the start is non-zero too, so every cell ends visited. |
| Generator.GenerateConnects | src/game.cpp:53-68 | After generating from an all-zero grid, every cell is reachable from the start. |
| Generator.GenerateCountsPassages | src/game.cpp:53-68 | After generating from an all-zero grid there are exactly `2 * (width * height - 1)` open sides, which is `width * height - 1` carves. |
| Generator.GenerateIsWellFormed | src/game.cpp:53-68 | The generated grid has the requested dimensions, mutual openings, and four-bit masks. |
| Generator.CarveIsolated | src/game.cpp:58-62 | In a cell with no in-maze neighbour, the loop changes nothing. |
| Generator.GenerateSingleCell | src/game.cpp:53-68 | On a 1×1 grid nothing is carved and the only mask stays 0. |
| Collision.TruncToInt | src/game.cpp:263 | The `(int)` conversion rounds toward zero. It equals the floor for non-negative values, and for negative values it is the least integer at or above the argument. |
| Collision.ClampedCellIsFloor | src/game.cpp:255-263 | On every coordinate the clamp produces, the truncated cell index equals the floor of the position divided by the cell size. |
| Collision.CellOf | src/game.cpp:263-277 | The cell index `(int)(v / cellSize)` of a pixel coordinate. `CellOfInRange` states that a coordinate inside the window lies in a cell of the maze, between that cell's edges, and `ClampedCellIsFloor` that it equals the floor on clamped coordinates. |
| Collision.Clamp | src/game.cpp:255-258 | For a window of at least two margins, the clamped coordinate lies within the margins. A coordinate strictly inside the margins is unchanged. |
| Collision.Gate | src/game.cpp:263-275 | The index goes down by one exactly when the target cell is lower and the back wall is open, and up by one in the symmetric case. Otherwise it is unchanged. A moved index keeps the target. A target in the same cell is kept as it is. A target in a lower cell behind a closed back wall snaps to `cell * cellSize`. A target in a higher cell behind a closed forward wall snaps to `cell * cellSize + cellSize - 1`. |
| Collision.Move | src/game.cpp:249-293 | Each cell index changes by at most one per call. Along x, a clamped target in a lower cell moves the index down by one when the pre-move cell's LEFT bit is set; when LEFT is closed, the index is kept and x snaps to `cellX * cellSize`. A target in a higher cell moves the index up by one when RIGHT is set; when RIGHT is closed, the index is kept and x snaps to `cellX * cellSize + cellSize - 1`. A target in the same cell keeps the index. Otherwise x is the clamped target. TOP and BOTTOM act likewise along y, and all four read the pre-move cell's mask. |
| Collision.MoveStaysInMaze | src/game.cpp:255-289 | With a window of at least two pixels on each axis, the player's cell stays in the maze whatever the masks hold, because the clamped target lies in a cell of the maze. |
| Collision.OnePixelWindowLeavesMaze | src/game.cpp:255-265 | In a one-pixel window whose mask opens LEFT, a zero move steps the index to `-1`, out of the maze. |
| Collision.MoveStaysInBounds | src/game.cpp:255-289 | With cells of at least three pixels, the final position lies within `[WALL_THICKNESS, window - WALL_THICKNESS]` on both axes. |
| Collision.TwoPixelCellsLeaveBounds | src/game.cpp:269-272 | With two-pixel cells, a blocked move to the right from the starting cell snaps to pixel 1, inside the margin. So the bound above needs three-pixel cells. |
| Collision.MoveKeepsCell | src/game.cpp:249-292 | When the position's floor divided by the cell size equals the cell indices, and each offset is smaller than a cell, the new cell is in the maze and the relation still holds. |
| Collision.OnePixelCellsDisagree | src/game.cpp:255-275 | With one-pixel cells, a quarter-pixel move to the right from the constructor's start in a corridor is clamped to pixel 2. The index advances only to cell 1, so position and index disagree. This is why `MoveKeepsCell` needs two-pixel cells. |
| Collision.LongMoveDisagrees | src/game.cpp:261-275 | A move of two cells through an open side lands in cell 2 while the index advances only to cell 1. This is why `MoveKeepsCell` needs moves shorter than a cell. |
| Collision.MoveCrossesPassages | src/game.cpp:261-289 | In a maze with mutual openings, a changed index means the player stepped to the adjacent cell in that direction, through a passage open on both sides, into a cell in the maze. |
| Codec.LittleEndianRoundTrip | src/game.cpp:185-186 | Reading back the `n` little-endian bytes of a number below `256^n` gives that number. |
| Codec.FromLittleEndianRoundTrip | src/game.cpp:208-209 | Every byte string is the little-endian encoding of the number it is read as. |
| Codec.IntRoundTrip | src/game.cpp:185-186 | Every `int`, negative ones included, survives the four-byte write and read. |
| Codec.BytesRoundTrip | src/game.cpp:208-209 | Any four bytes read as an `int` and written again give the same four bytes. |
| Codec.IntBytes | src/game.cpp:185-186 | The four bytes written for an `int`, least significant first, two's complement for negatives. `IntRoundTrip` states that reading them back gives the value. |
| Codec.BytesInt | src/game.cpp:208-209 | The `int` read from four bytes always lies in `[INT_MIN, INT_MAX]`. `BytesRoundTrip` states that writing it back gives the same bytes. |
| Codec.Encode | src/game.cpp:184-189 | The file holds the 8-byte header followed by exactly `width * height` bytes. The first four header bytes read back as the width and the next four as the height. The bytes after the header are the cells in order. |
| Codec.Decode | src/game.cpp:207-212 | A decoded grid is well formed, fits in the file, and is exactly what the file's prefix encodes. |
| Codec.DecodeEncode | src/game.cpp:184-212 | Decoding an encoded grid, whatever bytes follow it, gives back the same dimensions and cells. |
| Codec.ShortFileFails | src/game.cpp:208-209 | A file shorter than the 8-byte header never decodes. |
| Codec.Save | src/game.cpp:174-195 | A file that can be opened ends up holding a decodable copy of the grid. One that cannot be opened is left as it was. |
| Codec.Load | src/game.cpp:197-218 | Loading keeps the allocated dimensions. A file that cannot be opened leaves the grid unchanged, and a changed grid is exactly what the file decodes to. A file that decodes to the allocated dimensions is loaded. |
| Codec.SaveThenLoad | src/game.cpp:174-218 | Saving a grid and loading the file into a grid of the same dimensions restores it. |
| Session.NewGame | src/game.cpp:11-26 | The constructor allocates an all-zero grid of the requested dimensions and puts the player in cell (0, 0) at half a cell from each edge. The position agrees with the indices from the start. |
| Session.StartOf | src/game.cpp:74-75 | `rng() % mazeWidth` and `rng() % mazeHeight` always give a cell in the maze. A draw already in range is kept. |
| Session.Initialize | src/game.cpp:70-81 | Without `CONST_MAZE`, the grid only gains bits, and a writable file ends up decoding to it. With `CONST_MAZE`, the file is not written, an unopenable file leaves the grid unchanged, a changed grid is what the file decodes to, and a file that decodes to the session's dimensions is loaded. The player, the cell size and the dimensions are kept. |
| Session.GeneratedMazeIsPerfect | src/game.cpp:72-78 | A fresh session without `CONST_MAZE` ends initialization with a perfect maze: mutual four-bit openings, `width * height - 1` passages, every cell reachable from the start, and every cell visited when there are two or more. |
| Session.ConstMazeReplaysSaved | src/game.cpp:70-81 | A `CONST_MAZE` session plays exactly the maze that an earlier generating session of the same dimensions saved. |
| Session.Step | src/game.cpp:249-293 | Any move leaves the grid alone and moves each index by at most one. The player stays in the maze whenever the window is at least two pixels on each axis, or when openings are mutual. With cells of two pixels or more, a move smaller than a cell keeps the session's invariant: the player is in the maze and in the cell its indices name. |
| Session.Play | src/main.cpp:148-160 | A run of `movePlayer` calls yields a session exactly when every move is smaller than a cell on each axis. The resulting session has the same grid and cell size. |
| Session.PlayKeepsCell | src/game.cpp:249-292 | Any sequence of moves each smaller than a cell keeps the player in the maze and in the cell its indices name. |
| Session.NewGameKeepsCell | src/game.cpp:22-26 | From the constructor's starting position, through initialization and any sequence of small moves, the position agrees with the cell indices. |
| Settings.FirstComma | src/main.cpp:34 | `find(',')` returns a position holding a comma with no comma before it, or nothing when the line has no comma. |
| Settings.Split | src/main.cpp:34-37 | A line splits exactly when it holds a comma. The key has no comma, and key, comma and value together make up the line. |
| Settings.SplitJoin | src/main.cpp:36-37 | A key without commas joined by a comma to any value, commas included, splits back into that key and that value. |
| Settings.ReadSettingsFile | src/main.cpp:26-29 | A file that cannot be opened, or that holds only a header, gives the empty map. |
| Settings.Apply | src/main.cpp:34-39 | One loop iteration: `settings[key] = value` for a line holding a comma, nothing otherwise. `FoldKeys` and `FoldValues` state its effect over many lines. |
| Settings.Fold | src/main.cpp:33-40 | The `while (getline ...)` loop over the lines after the header. `FoldKeys` gives its key set and `FoldValues` gives each key the value of its last defining line (`LastDefinition`). |
| Settings.ReadSettings | src/main.cpp:31-42 | `readSettingsCSV` on an opened file: skip the header, then run the loop from the empty map. `ReadSettingsKeys`, `ReadSettingsLastWins`, `HeaderIgnored` and `LineWithoutCommaIgnored` state what it returns. |
| Settings.FoldKeys | src/main.cpp:33-40 | The loop keeps the keys it had and adds exactly the keys of the lines holding a comma. |
| Settings.FoldValues | src/main.cpp:33-40 | After the loop, a key holds the value of the last line that defines it. A key no line defines keeps its earlier value. |
| Settings.ReadSettingsKeys | src/main.cpp:32-40 | The result's keys are exactly the keys of the lines after the header that hold a comma. |
| Settings.ReadSettingsLastWins | src/main.cpp:38 | When a key repeats, the result holds the value from its last line. |
| Settings.HeaderIgnored | src/main.cpp:32 | The first line is discarded whatever it holds. |
| Settings.LineWithoutCommaIgnored | src/main.cpp:34-35 | Deleting a line without a comma from after the header does not change the result. |
| Settings.WrittenSettingsReadBack | src/main.cpp:23-43 | A file of one header line and `key,value` lines with distinct keys reads back as exactly those pairs: its keys are the pairs' keys, and each key maps to its pair's value. |
| Settings.NoOtherKeys | src/main.cpp:33-40 | Every key read from a file of `key,value` lines is the key of one of its pairs. |

## Left out

- All SDL work is not modelled: textures, drawing, PNG export, the render loop and event handling. It is presentation and foreign calls.
- `std::mt19937` and `std::shuffle` are not modelled. Their outputs are the arguments `order`, `drawX` and `drawY`.
- Opening, writing and reading files are not modelled. The model keeps only the bytes written and read, and whether the file could be opened.
- `std::stoi` and `std::stof` are not modelled. The conversion of setting values, and the exceptions it throws, belong to a library.
- The ray-angle trigonometry in `src/main.cpp` is not modelled. It is floating-point code used only for presentation.
- Frame pacing and sleeping are not modelled. They are timing only.
- `new`, `delete` and `memset` are not modelled. The grid is an immutable sequence.
- Player coordinates are `real`, not `float`. Float rounding is not modelled.
- `getline` splitting of the settings file into lines is not modelled, including a trailing `\r` on Windows line endings. The model takes the lines as given.
- `Session.NewGame` requires positive dimensions and cell size, and a grid of at most `INT_MAX` cells. The source does not check this, and for a zero dimension `initialize` would take `rng() % 0`.
- `Codec.Load` is stricter than the source. The source trusts the file header: it overwrites `mazeWidth` and `mazeHeight` and reads `width * height` bytes into the buffer allocated for the old dimensions, without checking that the read was complete. The model keeps the current grid unless the file holds a valid header, dimensions equal to the allocated ones, and enough cell bytes.
- `Codec.Encode` assumes a four-byte little-endian `int`. This holds on the platforms the game targets, but C++ does not guarantee it.
- `Collision.MoveStaysInBounds` requires cells of at least three pixels, and a window of at least twice the margin on each axis. With two-pixel cells the bound fails, as `Collision.TwoPixelCellsLeaveBounds` shows.
- `Collision.MoveKeepsCell` requires cells of at least two pixels and moves smaller than one cell on each axis. The source requires neither: `CELL_SIZE` and `PLAYER_SPEED` are independent settings. Longer moves can place the position more than one cell away from the index, which the source advances by only one (`Collision.LongMoveDisagrees`). With one-pixel cells, the low margin alone pushes the position two cells on (`Collision.OnePixelCellsDisagree`).
- `Session.Step` accepts every move, as `movePlayer` does. It promises the cell invariant only for moves smaller than a cell with cells of two pixels or more, for the reasons given for `Collision.MoveKeepsCell`. It promises that the player stays in the maze for every window of at least two pixels on each axis, or for any window when openings are mutual. The one-pixel window is the only case that needs mutual openings: there a loaded mask that opens onto the border steps the index out of the maze (`Collision.OnePixelWindowLeavesMaze`).
- `Session.Play` stops at the first move of a cell or more, because the cell invariant is only claimed for smaller moves.
- Integer overflow in pixel arithmetic is not modelled. The source computes `width * size`, `height * size` (`src/game.cpp:13-14`) and `cellX * cellSize` (`src/game.cpp:265`, `src/game.cpp:271`) in `int`. The model computes them without bound, and `Session.NewGame` bounds only `width * height`.
- The recursion depth of `generateMaze` is not modelled. The source recurses once per carved cell, up to `width * height` frames deep, so a large grid can exhaust the call stack. The model's recursion has no depth limit.

=== FILE: bytes.dfy ===
/** Bytes as the file stores them, and their conversions to numbers. */
module Bytes {
  type Byte = bv8

  /** A number below 256 survives the trip through a byte. */
  lemma ByteOfInt(r: int)
    requires 0 <= r < 256
    ensures (r as Byte) as int == r
  {
  }

  /** A byte survives the trip through a number. */
  lemma IntOfByte(c: Byte)
    ensures (c as int) as Byte == c
  {
  }
}

=== FILE: codec.dfy ===
/** The binary maze file (`saveMazeToFile` / `loadMazeFromFile`).

    The file holds the width and the height as native `int`s (four bytes,
    two's complement, least significant byte first on the platforms the game
    runs on), followed by one byte per cell in row-major order. A file is
    `Some(bytes)` when it can be opened and `None` when it cannot.

    Loading is stricter than the source, which trusts the header: here a file
    that is too short, whose header is not a pair of positive dimensions with
    an `int`-sized product, or whose dimensions differ from those of the grid
    already allocated, leaves the grid unchanged.
 */
module Codec {
  import opened MazeGrid
  import opened Optional
  import opened Bytes

  const INT_MIN: int := -0x8000_0000
  const TWO_32: int := 0x1_0000_0000

  /** Bytes of the header: two four-byte `int`s. */
  const HEADER: int := 8

  /** `256^n`. */
  function Pow256(n: nat): (p: int)
    ensures 1 <= p
  {
    if n == 0 then 1 else 256 * Pow256(n - 1)
  }

  /** The `n` low bytes of `u`, least significant first. */
  function LittleEndian(u: int, n: nat): (b: seq<Byte>)
    requires 0 <= u
    ensures |b| == n
  {
    if n == 0 then [] else [(u % 256) as Byte] + LittleEndian(u / 256, n - 1)
  }

  /** The unsigned number bytes stand for, least significant first. */
  function FromLittleEndian(b: seq<Byte>): (u: int)
    ensures 0 <= u < Pow256(|b|)
  {
    if b == [] then 0 else b[0] as int + 256 * FromLittleEndian(b[1..])
  }

  lemma {:induction false} LittleEndianRoundTrip(u: int, n: nat)
    requires 0 <= u < Pow256(n)
    ensures FromLittleEndian(LittleEndian(u, n)) == u
  {
    if n > 0 {
      var q, r := u / 256, u % 256;
      assert u == 256 * q + r && 0 <= r < 256;
      assert 0 <= q < Pow256(n - 1);
      var b := LittleEndian(u, n);
      ByteOfInt(r);
      assert b[0] as int == r;
      assert b[1..] == LittleEndian(q, n - 1);
      LittleEndianRoundTrip(q, n - 1);
      assert FromLittleEndian(b) == b[0] as int + 256 * FromLittleEndian(b[1..]);
    }
  }

  lemma {:induction false} FromLittleEndianRoundTrip(b: seq<Byte>)
    ensures LittleEndian(FromLittleEndian(b), |b|) == b
  {
    if b != [] {
      var u := FromLittleEndian(b);
      var k := FromLittleEndian(b[1..]);
      assert u == 256 * k + b[0] as int && 0 <= b[0] as int < 256;
      assert u % 256 == b[0] as int && u / 256 == k;
      IntOfByte(b[0]);
      FromLittleEndianRoundTrip(b[1..]);
    }
  }

  /** The four bytes of an `int`, least significant first. */
  function IntBytes(v: int): (b: seq<Byte>)
    requires INT_MIN <= v <= INT_MAX
    ensures |b| == 4
  {
    LittleEndian(if v < 0 then v + TWO_32 else v, 4)
  }

  /** The `int` four bytes stand for, least significant first. */
  function BytesInt(b: seq<Byte>): (v: int)
    requires |b| == 4
    ensures INT_MIN <= v <= INT_MAX
  {
    var u := FromLittleEndian(b);
    assert Pow256(4) == TWO_32;
    if u > INT_MAX then u - TWO_32 else u
  }

  /** Writing an `int` and reading it back gives the same value. */
  lemma IntRoundTrip(v: int)
    requires INT_MIN <= v <= INT_MAX
    ensures BytesInt(IntBytes(v)) == v
  {
    assert Pow256(4) == TWO_32;
    LittleEndianRoundTrip(if v < 0 then v + TWO_32 else v, 4);
  }

  /** Every four bytes are the encoding of the `int` they are read as. */
  lemma BytesRoundTrip(b: seq<Byte>)
    requires |b| == 4
    ensures IntBytes(BytesInt(b)) == b
  {
    assert Pow256(4) == TWO_32;
    FromLittleEndianRoundTrip(b);
  }

  /** A valid grid's dimensions are `int`s. */
  lemma DimensionsFit(m: Maze)
    requires Valid(m)
    ensures m.width <= INT_MAX && m.height <= INT_MAX
  {
    MulLeft(m.width, 1, m.height);
    MulLeft(m.height, 1, m.width);
  }

  /** The bytes `saveMazeToFile` writes: width, height, then the cells. */
  function Encode(m: Maze): (b: seq<Byte>)
    requires Valid(m)
    ensures |b| == HEADER + m.width * m.height
    ensures BytesInt(b[0..4]) == m.width && BytesInt(b[4..8]) == m.height
    ensures b[HEADER..] == m.cells
  {
    DimensionsFit(m);
    var wb, hb := IntBytes(m.width), IntBytes(m.height);
    var b := wb + hb + m.cells;
    assert BytesInt(b[0..4]) == m.width by {
      assert b[0..4] == wb;
      IntRoundTrip(m.width);
    }
    assert BytesInt(b[4..8]) == m.height by {
      assert b[4..8] == hb;
      IntRoundTrip(m.height);
    }
    b
  }

  /** The grid a file describes, if its header is a pair of positive
      dimensions whose product is an `int` and it holds that many cell
      bytes; bytes past the cells are ignored, as the source reads no
      further. */
  function Decode(b: seq<Byte>): (r: Option<Maze>)
    ensures r.Some? ==> Valid(r.value) && HEADER + |r.value.cells| <= |b|
    ensures r.Some? ==> Encode(r.value) == b[..HEADER + |r.value.cells|]
  {
    if |b| < HEADER then None
    else
      var w := BytesInt(b[0..4]);
      var h := BytesInt(b[4..8]);
      if w < 1 || h < 1 || w * h > INT_MAX || |b| - HEADER < w * h then None
      else
        var m := Maze(w, h, b[HEADER..HEADER + w * h]);
        BytesRoundTrip(b[0..4]);
        BytesRoundTrip(b[4..8]);
        assert b[..HEADER + w * h] == b[0..4] + b[4..8] + m.cells;
        Some(m)
  }

  /** Decoding what was encoded gives the grid back, whatever follows it. */
  lemma DecodeEncode(m: Maze, rest: seq<Byte>)
    requires Valid(m)
    ensures Decode(Encode(m) + rest) == Some(m)
  {
    var e := Encode(m);
    var b := e + rest;
    assert b[0..4] == e[0..4] && b[4..8] == e[4..8];
    assert b[HEADER..HEADER + m.width * m.height] == e[HEADER..] == m.cells;
  }

  /** A file too short for a header never decodes. */
  lemma ShortFileFails(b: seq<Byte>)
    requires |b| < HEADER
    ensures Decode(b) == None
  {
  }

  /** The file contents after `saveMazeToFile`: the encoding when the file
      can be opened for writing, the previous contents otherwise. The grid
      itself is never changed by saving. */
  function Save(m: Maze, writable: bool, before: Option<seq<Byte>>): (after: Option<seq<Byte>>)
    requires Valid(m)
    ensures writable ==> after.Some? && Decode(after.value) == Some(m)
    ensures !writable ==> after == before
  {
    if writable then
      DecodeEncode(m, []);
      assert Encode(m) + [] == Encode(m);
      Some(Encode(m))
    else before
  }

  /** The grid after `loadMazeFromFile` into `current`: the file's grid when
      it decodes to the allocated dimensions, `current` otherwise (and in
      particular when the file cannot be opened). */
  function Load(current: Maze, file: Option<seq<Byte>>): (r: Maze)
    requires Valid(current)
    ensures Valid(r) && r.width == current.width && r.height == current.height
    ensures file == None ==> r == current
    ensures r != current ==> file.Some? && Decode(file.value) == Some(r)
    ensures (file.Some? && Decode(file.value).Some?
             && Decode(file.value).value.width == current.width
             && Decode(file.value).value.height == current.height)
      ==> r == Decode(file.value).value
  {
    if file.None? then current
    else
      match Decode(file.value)
      case Some(m) =>
        if m.width == current.width && m.height == current.height then m else current
      case None => current
  }

  /** Saving a grid and loading the file into a grid of the same
      dimensions restores it exactly. */
  lemma SaveThenLoad(m: Maze, current: Maze, before: Option<seq<Byte>>)
    requires Valid(m) && Valid(current)
    requires m.width == current.width && m.height == current.height
    ensures Load(current, Save(m, true, before)) == m
  {
  }
}

=== FILE: collision.dfy ===
/** Player movement with wall collisions (`movePlayer`).

    The player is a point in window pixels together with the cell it is in.
    A move first clamps the target to the window, keeping a margin of
    `WALL_THICKNESS` pixels; then, axis by axis, it compares the cell the
    target lies in with the player's cell. Crossing into the next cell is
    allowed only when the wall bit of the player's cell on that side is open;
    otherwise the coordinate snaps to the edge of the current cell. Both axes
    consult the mask of the cell the player was in before the move.

    Pixel coordinates are `float` in the game and `real` here.
 */
module Collision {
  import opened Directions
  import opened MazeGrid

  /** Margin, in pixels, kept between the player and the window border. */
  const WALL_THICKNESS: int := 2

  /** The `Player` record: position in pixels and the cell it is in. */
  datatype Player = Player(x: real, y: real, cellX: int, cellY: int)

  /** C++'s conversion of a floating value to `int`: truncation toward zero. */
  function TruncToInt(r: real): (n: int)
    ensures r >= 0.0 ==> n == r.Floor
    ensures r < 0.0 ==> r <= n as real < r + 1.0
  {
    if r >= 0.0 then r.Floor else -((-r).Floor)
  }

  /** The two bound checks of one axis, applied in order: first against the
      low margin, then against the high one. */
  function Clamp(v: real, window: int): (c: real)
    ensures WALL_THICKNESS + WALL_THICKNESS <= window ==>
      WALL_THICKNESS as real <= c <= (window - WALL_THICKNESS) as real
    ensures WALL_THICKNESS as real < v < (window - WALL_THICKNESS) as real ==> c == v
  {
    var low := if v <= WALL_THICKNESS as real then WALL_THICKNESS as real else v;
    if low >= (window - WALL_THICKNESS) as real then (window - WALL_THICKNESS) as real else low
  }

  /** The cell index a pixel coordinate falls in, as the source computes it. */
  function CellOf(v: real, cellSize: int): (n: int)
    requires 1 <= cellSize
  {
    TruncToInt(v / cellSize as real)
  }

  /** The collision step of one axis: `pos` is the clamped target, `cell`
      the player's cell index on this axis, `mask` the player's cell's wall
      mask, and `back`/`fwd` the directions of decreasing/increasing index.
      Returns the new coordinate and the new cell index. */
  function Gate(pos: real, cell: int, cellSize: int, mask: Mask, back: Dir, fwd: Dir): (r: (real, int))
    requires 1 <= cellSize
    ensures r.1 == cell - 1 <==> CellOf(pos, cellSize) < cell && Has(mask, back)
    ensures r.1 == cell + 1 <==> CellOf(pos, cellSize) > cell && Has(mask, fwd)
    ensures cell - 1 <= r.1 <= cell + 1
    ensures r.1 != cell ==> r.0 == pos
    ensures CellOf(pos, cellSize) == cell ==> r == (pos, cell)
    ensures CellOf(pos, cellSize) < cell && !Has(mask, back) ==> r.0 == (cell * cellSize) as real
    ensures CellOf(pos, cellSize) > cell && !Has(mask, fwd) ==> r.0 == (cell * cellSize + cellSize - 1) as real
  {
    var target := CellOf(pos, cellSize);
    if target < cell then
      if !Has(mask, back) then ((cell * cellSize) as real, cell) else (pos, cell - 1)
    else if target > cell then
      if !Has(mask, fwd) then ((cell * cellSize + (cellSize - 1)) as real, cell) else (pos, cell + 1)
    else
      (pos, cell)
  }

  /** `movePlayer(dx, dy)` in a maze whose cells are `cellSize` pixels wide;
      the window is `width * cellSize` by `height * cellSize` pixels. */
  function Move(m: Maze, cellSize: int, p: Player, dx: real, dy: real): (q: Player)
    requires Valid(m) && InMaze(m, p.cellX, p.cellY) && 1 <= cellSize
    ensures -1 <= q.cellX - p.cellX <= 1 && -1 <= q.cellY - p.cellY <= 1
    ensures q.cellX < p.cellX ==> Opens(m, p.cellX, p.cellY, LEFT)
    ensures q.cellX > p.cellX ==> Opens(m, p.cellX, p.cellY, RIGHT)
    ensures q.cellY < p.cellY ==> Opens(m, p.cellX, p.cellY, TOP)
    ensures q.cellY > p.cellY ==> Opens(m, p.cellX, p.cellY, BOTTOM)
    ensures var t := CellOf(Clamp(p.x + dx, m.width * cellSize), cellSize);
      && (t < p.cellX && Opens(m, p.cellX, p.cellY, LEFT) ==> q.cellX == p.cellX - 1)
      && (t > p.cellX && Opens(m, p.cellX, p.cellY, RIGHT) ==> q.cellX == p.cellX + 1)
      && (t == p.cellX ==> q.cellX == p.cellX)
      && (t < p.cellX && !Opens(m, p.cellX, p.cellY, LEFT) ==>
            q.cellX == p.cellX && q.x == (p.cellX * cellSize) as real)
      && (t > p.cellX && !Opens(m, p.cellX, p.cellY, RIGHT) ==>
            q.cellX == p.cellX && q.x == (p.cellX * cellSize + cellSize - 1) as real)
      && (q.cellX != p.cellX || t == p.cellX ==> q.x == Clamp(p.x + dx, m.width * cellSize))
    ensures var t := CellOf(Clamp(p.y + dy, m.height * cellSize), cellSize);
      && (t < p.cellY && Opens(m, p.cellX, p.cellY, TOP) ==> q.cellY == p.cellY - 1)
      && (t > p.cellY && Opens(m, p.cellX, p.cellY, BOTTOM) ==> q.cellY == p.cellY + 1)
      && (t == p.cellY ==> q.cellY == p.cellY)
      && (t < p.cellY && !Opens(m, p.cellX, p.cellY, TOP) ==>
            q.cellY == p.cellY && q.y == (p.cellY * cellSize) as real)
      && (t > p.cellY && !Opens(m, p.cellX, p.cellY, BOTTOM) ==>
            q.cellY == p.cellY && q.y == (p.cellY * cellSize + cellSize - 1) as real)
      && (q.cellY != p.cellY || t == p.cellY ==> q.y == Clamp(p.y + dy, m.height * cellSize))
  {
    var newX := Clamp(p.x + dx, m.width * cellSize);
    var newY := Clamp(p.y + dy, m.height * cellSize);
    var cell := At(m, p.cellX, p.cellY);
    var gx := Gate(newX, p.cellX, cellSize, cell, LEFT, RIGHT);
    var gy := Gate(newY, p.cellY, cellSize, cell, TOP, BOTTOM);
    Player(gx.0, gy.0, gx.1, gy.1)
  }

  // ----- Bounds -----

  /** `floor(v / cellSize) == k` as a pair of inequalities. */
  lemma FloorDiv(v: real, cellSize: int, k: int)
    requires 1 <= cellSize
    ensures (v / cellSize as real).Floor == k <==>
      (k * cellSize) as real <= v < ((k + 1) * cellSize) as real
  {
    var c := cellSize as real;
    assert (v / c) * c == v;
    assert (k * cellSize) as real == k as real * c;
    assert ((k + 1) * cellSize) as real == (k + 1) as real * c;
    if (v / c).Floor == k {
      assert k as real <= v / c < (k + 1) as real;
      MulMonotone(k as real, v / c, c);
      MulMonotoneStrict(v / c, (k + 1) as real, c);
    } else if (v / c).Floor < k {
      assert v / c < k as real;
      MulMonotoneStrict(v / c, k as real, c);
    } else {
      assert (k + 1) as real <= v / c;
      MulMonotone((k + 1) as real, v / c, c);
    }
  }

  lemma MulMonotone(a: real, b: real, c: real)
    requires a <= b && 0.0 < c
    ensures a * c <= b * c
  {
  }

  lemma MulMonotoneStrict(a: real, b: real, c: real)
    requires a < b && 0.0 < c
    ensures a * c < b * c
  {
  }

  /** With cells of at least three pixels and a window of at least twice the
      margin on each axis, the player stays within the margins: the clamp
      keeps the target inside, and a snap to a cell edge lands inside as
      well, because a snap to the left edge happens only from a cell other
      than the first and one to the right edge only from a cell other than
      the last. */
  lemma MoveStaysInBounds(m: Maze, cellSize: int, p: Player, dx: real, dy: real)
    requires Valid(m) && InMaze(m, p.cellX, p.cellY) && 3 <= cellSize
    requires WALL_THICKNESS + WALL_THICKNESS <= m.width * cellSize
    requires WALL_THICKNESS + WALL_THICKNESS <= m.height * cellSize
    ensures var q := Move(m, cellSize, p, dx, dy);
      && WALL_THICKNESS as real <= q.x <= (m.width * cellSize - WALL_THICKNESS) as real
      && WALL_THICKNESS as real <= q.y <= (m.height * cellSize - WALL_THICKNESS) as real
  {
    var newX := Clamp(p.x + dx, m.width * cellSize);
    var newY := Clamp(p.y + dy, m.height * cellSize);
    GateStaysInBounds(newX, p.cellX, m.width, cellSize, At(m, p.cellX, p.cellY), LEFT, RIGHT);
    GateStaysInBounds(newY, p.cellY, m.height, cellSize, At(m, p.cellX, p.cellY), TOP, BOTTOM);
  }

  /** A non-negative coordinate inside `cells` cells falls in one of them. */
  lemma CellOfInRange(pos: real, cells: int, cellSize: int)
    requires 1 <= cellSize && 0.0 <= pos < (cells * cellSize) as real
    ensures 0 <= CellOf(pos, cellSize) < cells
    ensures (CellOf(pos, cellSize) * cellSize) as real <= pos
    ensures pos < ((CellOf(pos, cellSize) + 1) * cellSize) as real
  {
    var t := CellOf(pos, cellSize);
    FloorDiv(pos, cellSize, t);
    assert 0 <= t by {
      if t < 0 {
        MulLeft(cellSize, t + 1, 0);
      }
    }
    assert t < cells by {
      if t >= cells {
        MulLeft(cellSize, cells, t);
      }
    }
  }

  /** With a window of at least two pixels on each axis, the player never
      leaves the maze, whatever the grid's masks hold: the clamped target
      lies in a cell of the maze, and the index only steps toward it. */
  lemma MoveStaysInMaze(m: Maze, cellSize: int, p: Player, dx: real, dy: real)
    requires Valid(m) && InMaze(m, p.cellX, p.cellY) && 1 <= cellSize
    requires WALL_THICKNESS <= m.width * cellSize && WALL_THICKNESS <= m.height * cellSize
    ensures var q := Move(m, cellSize, p, dx, dy);
      InMaze(m, q.cellX, q.cellY)
  {
    var newX := Clamp(p.x + dx, m.width * cellSize);
    var newY := Clamp(p.y + dy, m.height * cellSize);
    ClampCases(p.x + dx, m.width * cellSize);
    ClampCases(p.y + dy, m.height * cellSize);
    CellOfInRange(newX, m.width, cellSize);
    CellOfInRange(newY, m.height, cellSize);
  }

  /** A window of one pixel is the only case where a mask opening onto the
      border lets the player out: the clamp puts the target at `-1`, in cell
      `-1`, and an open LEFT side steps the index there. */
  lemma OnePixelWindowLeavesMaze()
    ensures var q := Move(Maze(1, 1, [DIR_LEFT]), 1, Player(0.5, 0.5, 0, 0), 0.0, 0.0);
      q.cellX == -1 && !InMaze(Maze(1, 1, [DIR_LEFT]), q.cellX, q.cellY)
  {
  }

  /** Pixel bounds of the left edge of a column other than the first. */
  lemma LeftEdgeInside(cell: int, cells: int, cellSize: int)
    requires 1 <= cell < cells && 1 <= cellSize
    ensures cellSize <= cell * cellSize <= cells * cellSize - cellSize
  {
    MulLeft(cellSize, 1, cell);
    MulLeft(cellSize, cell, cells - 1);
    assert cellSize * (cells - 1) == cells * cellSize - cellSize;
  }

  /** Pixel bounds of the right edge of a column other than the last. */
  lemma RightEdgeInside(cell: int, cells: int, cellSize: int)
    requires 0 <= cell && cell + 1 < cells && 1 <= cellSize
    ensures cellSize - 1 <= cell * cellSize + cellSize - 1 <= cells * cellSize - cellSize - 1
  {
    MulLeft(cellSize, 0, cell);
    MulLeft(cellSize, cell + 1, cells - 1);
    assert cellSize * (cell + 1) == cell * cellSize + cellSize;
    assert cellSize * (cells - 1) == cells * cellSize - cellSize;
  }

  /** One axis of `MoveStaysInBounds`: `cells` cells of `cellSize` pixels. */
  lemma GateStaysInBounds(pos: real, cell: int, cells: int, cellSize: int, mask: Mask, back: Dir, fwd: Dir)
    requires 0 <= cell < cells && 3 <= cellSize
    requires WALL_THICKNESS as real <= pos <= (cells * cellSize - WALL_THICKNESS) as real
    ensures var r := Gate(pos, cell, cellSize, mask, back, fwd);
      WALL_THICKNESS as real <= r.0 <= (cells * cellSize - WALL_THICKNESS) as real
  {
    CellOfInRange(pos, cells, cellSize);
    var t := CellOf(pos, cellSize);
    if t < cell {
      LeftEdgeInside(cell, cells, cellSize);
    } else if t > cell {
      RightEdgeInside(cell, cells, cellSize);
    }
  }

  /** The bound needs cells of three pixels: with two-pixel cells, a blocked
      move to the right out of the first column snaps to pixel 1, inside the
      margin. */
  lemma TwoPixelCellsLeaveBounds()
    ensures var q := Move(Empty(2, 1), 2, Player(1.0, 1.0, 0, 0), 1.0, 0.0);
      q.x == 1.0 && q.x < WALL_THICKNESS as real
  {
    var m := Empty(2, 1);
    assert At(m, 0, 0) == 0;
    assert Clamp(2.0, 4) == 2.0;
    assert CellOf(2.0, 2) == 1;
  }

  /** Truncation and floor agree on every coordinate the clamp produces:
      the clamp yields a negative value only in a one-pixel window, and that
      value is `-1`, on which both give `-1`. */
  lemma ClampedCellIsFloor(v: real, cells: int, cellSize: int)
    requires 1 <= cells && 1 <= cellSize
    ensures var c := Clamp(v, cells * cellSize);
      CellOf(c, cellSize) == (c / cellSize as real).Floor
  {
  }

  // ----- The player's cell -----

  /** The player's position lies in the cell its indices name. */
  predicate Agrees(p: Player, cellSize: int)
    requires 1 <= cellSize
  {
    && (p.x / cellSize as real).Floor == p.cellX
    && (p.y / cellSize as real).Floor == p.cellY
  }

  /** A move by less than one cell in each axis keeps the player in the
      maze and keeps its position in the cell its indices name: the target
      is at most one cell away, so the index moves by one exactly when the
      target is in the neighbouring cell, and a snap lands on an edge pixel
      of the current cell. */
  lemma MoveKeepsCell(m: Maze, cellSize: int, p: Player, dx: real, dy: real)
    requires Valid(m) && InMaze(m, p.cellX, p.cellY) && 2 <= cellSize && Agrees(p, cellSize)
    requires -(cellSize as real) < dx < cellSize as real
    requires -(cellSize as real) < dy < cellSize as real
    ensures var q := Move(m, cellSize, p, dx, dy);
      InMaze(m, q.cellX, q.cellY) && Agrees(q, cellSize)
  {
    GateKeepsCell(p.x, dx, p.cellX, m.width, cellSize, At(m, p.cellX, p.cellY), LEFT, RIGHT);
    GateKeepsCell(p.y, dy, p.cellY, m.height, cellSize, At(m, p.cellX, p.cellY), TOP, BOTTOM);
  }

  /** The cell invariant needs cells of two pixels: in a one-pixel-wide
      corridor, a quarter-pixel move to the right from the constructor's
      start is clamped to pixel 2, in cell 2, while the index advances only
      to cell 1. */
  lemma OnePixelCellsDisagree()
    ensures var m := Maze(5, 1, [DIR_RIGHT, DIR_LEFT | DIR_RIGHT, DIR_LEFT | DIR_RIGHT, DIR_LEFT | DIR_RIGHT, DIR_LEFT]);
      var p := Player(0.5, 0.5, 0, 0);
      var q := Move(m, 1, p, 0.25, 0.0);
      && Valid(m) && Agrees(p, 1)
      && q.x == 2.0 && q.cellX == 1 && !Agrees(q, 1)
  {
  }

  /** The cell invariant needs moves shorter than a cell: a move of two
      cells to the right through an open side lands in cell 2 while the
      index advances only to cell 1. */
  lemma LongMoveDisagrees()
    ensures var m := Maze(3, 1, [DIR_RIGHT, DIR_LEFT | DIR_RIGHT, DIR_LEFT]);
      var p := Player(5.0, 5.0, 0, 0);
      var q := Move(m, 10, p, 20.0, 0.0);
      && Valid(m) && Agrees(p, 10)
      && q.x == 25.0 && q.cellX == 1 && !Agrees(q, 10)
  {
  }

  /** Where the clamp can put a coordinate: nowhere below the window's
      start, nowhere in its last `WALL_THICKNESS` pixels, and, when it moves
      the value, only onto a margin beyond which the value lay. */
  lemma ClampCases(v: real, window: int)
    requires WALL_THICKNESS <= window
    ensures var c := Clamp(v, window);
      && 0.0 <= c <= (window - WALL_THICKNESS) as real
      && (c == v || (c == WALL_THICKNESS as real && v <= c) || (c == (window - WALL_THICKNESS) as real && c <= WALL_THICKNESS as real) || (c == (window - WALL_THICKNESS) as real && c <= v))
  {
  }

  /** Two cells whose pixel ranges come within one cell of each other are
      neighbours or equal. */
  lemma NearCells(t: int, cell: int, cellSize: int)
    requires 1 <= cellSize
    requires t * cellSize < (cell + 2) * cellSize && (cell - 1) * cellSize < (t + 1) * cellSize
    ensures cell - 1 <= t <= cell + 1
  {
    if t > cell + 1 {
      MulLeft(cellSize, cell + 2, t);
    } else if t < cell - 1 {
      MulLeft(cellSize, t + 1, cell - 1);
    }
  }

  /** A target less than a cell away from a position in cell `cell` lies,
      once clamped, inside the window and within one cell of `cell`. */
  lemma ClampNear(x: real, dx: real, cell: int, cells: int, cellSize: int)
    requires 0 <= cell < cells && 2 <= cellSize
    requires (cell * cellSize) as real <= x < ((cell + 1) * cellSize) as real
    requires -(cellSize as real) < dx < cellSize as real
    ensures var pos := Clamp(x + dx, cells * cellSize);
      && 0.0 <= pos < (cells * cellSize) as real
      && ((cell - 1) * cellSize) as real < pos < ((cell + 2) * cellSize) as real
  {
    MulLeft(cellSize, 1, cells);
    MulLeft(cellSize, cell + 1, cells);
    assert (cell - 1) * cellSize == cell * cellSize - cellSize;
    assert (cell + 1) * cellSize == cell * cellSize + cellSize;
    assert (cell + 2) * cellSize == cell * cellSize + cellSize + cellSize;
    ClampCases(x + dx, cells * cellSize);
  }

  /** One axis of `MoveKeepsCell`. */
  lemma GateKeepsCell(x: real, dx: real, cell: int, cells: int, cellSize: int, mask: Mask, back: Dir, fwd: Dir)
    requires 0 <= cell < cells && 2 <= cellSize
    requires (x / cellSize as real).Floor == cell
    requires -(cellSize as real) < dx < cellSize as real
    ensures var r := Gate(Clamp(x + dx, cells * cellSize), cell, cellSize, mask, back, fwd);
      0 <= r.1 < cells && (r.0 / cellSize as real).Floor == r.1
  {
    var pos := Clamp(x + dx, cells * cellSize);
    var r := Gate(pos, cell, cellSize, mask, back, fwd);
    FloorDiv(x, cellSize, cell);
    ClampNear(x, dx, cell, cells, cellSize);
    CellOfInRange(pos, cells, cellSize);
    var t := CellOf(pos, cellSize);
    assert t * cellSize < (cell + 2) * cellSize by {
      assert ((t * cellSize) as real) < ((cell + 2) * cellSize) as real;
    }
    assert (cell - 1) * cellSize < (t + 1) * cellSize by {
      assert ((cell - 1) * cellSize) as real < ((t + 1) * cellSize) as real;
    }
    NearCells(t, cell, cellSize);
    FloorDiv(r.0, cellSize, r.1);
  }

  /** In a maze with mutual openings, a move that changes the player's cell
      index along an axis goes through a passage open on both sides, and the
      cell it leads to is in the maze. */
  lemma MoveCrossesPassages(m: Maze, cellSize: int, p: Player, dx: real, dy: real)
    requires Valid(m) && Mutual(m) && InMaze(m, p.cellX, p.cellY) && 1 <= cellSize
    ensures var q := Move(m, cellSize, p, dx, dy);
      && (q.cellX != p.cellX ==>
            var d := if q.cellX < p.cellX then LEFT else RIGHT;
            q.cellX == p.cellX + Dx(d) && OpensBack(m, p.cellX, p.cellY, d))
      && (q.cellY != p.cellY ==>
            var d := if q.cellY < p.cellY then TOP else BOTTOM;
            q.cellY == p.cellY + Dy(d) && OpensBack(m, p.cellX, p.cellY, d))
  {
    NamesMatchOffsets();
    assert MutualAt(m, p.cellX, p.cellY, LEFT) && MutualAt(m, p.cellX, p.cellY, RIGHT);
    assert MutualAt(m, p.cellX, p.cellY, TOP) && MutualAt(m, p.cellX, p.cellY, BOTTOM);
  }
}

=== FILE: directions.dfy ===
/** The four maze directions: their wall bits and their neighbour offsets.

    A direction is the index the generator iterates over (0..3). Its bit in a
    cell mask is `1 << d`; the offset tables say where the neighbour in that
    direction lies (y grows downwards, as on screen), and `OppositeMask` is the
    bit the neighbour gets when a passage is carved towards it.
 */
module Directions {

  /** A direction index: 0 top, 1 right, 2 bottom, 3 left. */
  type Dir = d: int | 0 <= d < 4

  const TOP: Dir := 0
  const RIGHT: Dir := 1
  const BOTTOM: Dir := 2
  const LEFT: Dir := 3

  /** The `Direction` enum of the game: one bit per side of a cell. */
  const DIR_TOP: bv8 := 1
  const DIR_RIGHT: bv8 := 2
  const DIR_BOTTOM: bv8 := 4
  const DIR_LEFT: bv8 := 8

  /** The bit the generator sets on the current cell: `1 << dir`
      (see `BitIsShift`). */
  function Bit(d: Dir): (b: bv8) {
    [DIR_TOP, DIR_RIGHT, DIR_BOTTOM, DIR_LEFT][d]
  }

  /** The table agrees with the source's shift. */
  lemma BitIsShift(d: Dir)
    ensures Bit(d) == (1 as bv8) << d
  {
    if d == 0 {
    } else if d == 1 {
    } else if d == 2 {
    } else {
    }
  }

  /** The `dx` table. */
  function Dx(d: Dir): (step: int) {
    [0, 1, 0, -1][d]
  }

  /** The `dy` table. */
  function Dy(d: Dir): (step: int) {
    [-1, 0, 1, 0][d]
  }

  /** The `opposite` table: the mask set on the neighbour. */
  function OppositeMask(d: Dir): (b: bv8) {
    [DIR_BOTTOM, DIR_LEFT, DIR_TOP, DIR_RIGHT][d]
  }

  /** The direction pointing back from the neighbour. */
  function Flip(d: Dir): (e: Dir) {
    (d + 2) % 4
  }

  /** Whether mask `v` has the passage in direction `d` open. */
  predicate Has(v: bv8, d: Dir) {
    v & Bit(d) != 0
  }

  /** Whether mask `v` uses only the four direction bits. */
  predicate FourBit(v: bv8) {
    v & 0xF0 == 0
  }

  /** Number of open sides of a mask. */
  function Sides(v: bv8): (n: nat)
    ensures n <= 4
    ensures n == 0 <==> forall d: Dir :: !Has(v, d)
  {
    (if Has(v, TOP) then 1 else 0) + (if Has(v, RIGHT) then 1 else 0)
    + (if Has(v, BOTTOM) then 1 else 0) + (if Has(v, LEFT) then 1 else 0)
  }

  /** The enum's values are the shifts `1 << d`, they are pairwise disjoint,
      and together they fill exactly the low four bits. */
  lemma EnumIsOneHot()
    ensures DIR_TOP == Bit(TOP) && DIR_RIGHT == Bit(RIGHT)
    ensures DIR_BOTTOM == Bit(BOTTOM) && DIR_LEFT == Bit(LEFT)
    ensures forall d: Dir, e: Dir :: d != e ==> Bit(d) & Bit(e) == 0
    ensures DIR_TOP | DIR_RIGHT | DIR_BOTTOM | DIR_LEFT == 0x0F
    ensures forall d: Dir :: FourBit(Bit(d)) && Bit(d) != 0
  {
  }

  /** The `opposite` table holds the bit of the direction two steps round. */
  lemma OppositeIsFlippedBit(d: Dir)
    ensures OppositeMask(d) == Bit(Flip(d))
    ensures Flip(Flip(d)) == d && Flip(d) != d
  {
  }

  /** A direction and its opposite are inverse moves. */
  lemma FlipNegatesOffset(d: Dir)
    ensures Dx(Flip(d)) == -Dx(d) && Dy(Flip(d)) == -Dy(d)
  {
  }

  /** Every direction is a unit step along exactly one axis, and different
      directions step to different neighbours (4-neighbour adjacency). */
  lemma UnitSteps(d: Dir, e: Dir)
    ensures (Dx(d) == 0) != (Dy(d) == 0)
    ensures -1 <= Dx(d) <= 1 && -1 <= Dy(d) <= 1
    ensures Dx(d) == Dx(e) && Dy(d) == Dy(e) ==> d == e
  {
  }

  /** The names agree with the offsets: top and left decrease a coordinate,
      right and bottom increase one (the movement code relies on this). */
  lemma NamesMatchOffsets()
    ensures Dx(TOP) == 0 && Dy(TOP) == -1
    ensures Dx(RIGHT) == 1 && Dy(RIGHT) == 0
    ensures Dx(BOTTOM) == 0 && Dy(BOTTOM) == 1
    ensures Dx(LEFT) == -1 && Dy(LEFT) == 0
  {
  }

  /** Setting the bit of `d` opens exactly direction `d` and leaves the
      others as they were. */
  lemma HasAfterSet(v: bv8, d: Dir, e: Dir)
    ensures Has(v | Bit(d), e) <==> Has(v, e) || d == e
  {
  }

  /** Setting the bit of a closed direction adds exactly one open side. */
  lemma SidesAfterSet(v: bv8, d: Dir)
    requires !Has(v, d)
    ensures Sides(v | Bit(d)) == Sides(v) + 1
  {
    forall e: Dir ensures Has(v | Bit(d), e) <==> Has(v, e) || d == e {
      HasAfterSet(v, d, e);
    }
  }
}

=== FILE: generator.dfy ===
/** The randomized depth-first backtracker that carves the maze.

    A frame of the generator at cell `(x, y)` walks a shuffle of the four
    directions; for each one whose neighbour is in the maze and still has all
    four walls (mask 0) it opens the passage on both sides and recurses into
    the neighbour before trying the next direction. The random shuffles are
    an input here: `order[i]` is the shuffle drawn by the frame of the cell
    with index `i`. Every cell's frame runs at most once (a cell is entered
    only while its mask is 0, and entering it sets a bit), so one shuffle per
    cell describes any run of the generator.
 */
module Generator {
  import opened Directions
  import opened MazeGrid
  import opened Optional

  /** A shuffle of the four directions: four entries that cover all of
      `0..3`, hence a permutation of them. */
  predicate IsShuffle(p: seq<Dir>) {
    |p| == 4 && forall d: Dir :: d in p
  }

  /** A shuffle for every cell. */
  predicate Shuffles(order: seq<seq<Dir>>) {
    forall i :: 0 <= i < |order| ==> IsShuffle(order[i])
  }

  /** `generateMaze(x, y)`: one frame, looping over the shuffle drawn for
      `(x, y)`. */
  function Generate(m: Maze, order: seq<seq<Dir>>, x: int, y: int): (r: Maze)
    requires Valid(m) && InMaze(m, x, y) && |order| == |m.cells|
    ensures Valid(r) && Grows(m, r)
    decreases ZeroCount(m.cells), |order[Index(m, x, y)]|, 2
  {
    Carve(m, order, x, y, order[Index(m, x, y)])
  }

  /** The loop of that frame over the directions `ds` still to try.
      Termination: entering a neighbour turns a zero cell non-zero and no
      cell ever becomes zero again, so the number of zero cells drops;
      otherwise fewer directions remain. */
  function Carve(m: Maze, order: seq<seq<Dir>>, x: int, y: int, ds: seq<Dir>): (r: Maze)
    requires Valid(m) && InMaze(m, x, y) && |order| == |m.cells|
    ensures Valid(r) && Grows(m, r)
    decreases ZeroCount(m.cells), |ds|, 1
  {
    if ds == [] then m
    else
      var t := TryDirection(m, order, x, y, ds[0]);
      ZeroCountShrinks(m.cells, t.cells);
      var r := Carve(t, order, x, y, ds[1..]);
      GrowsTrans(m, t, r);
      r
  }

  /** One iteration of that loop: if the neighbour in direction `d` is in
      the maze and unvisited, open the passage on both sides and run the
      neighbour's frame; otherwise change nothing. */
  function TryDirection(m: Maze, order: seq<seq<Dir>>, x: int, y: int, d: Dir): (r: Maze)
    requires Valid(m) && InMaze(m, x, y) && |order| == |m.cells|
    ensures Valid(r) && Grows(m, r)
    decreases ZeroCount(m.cells), 0, 0
  {
    var nx, ny := x + Dx(d), y + Dy(d);
    if InMaze(m, nx, ny) && At(m, nx, ny) == 0 then
      var m1 := OpenPassage(m, x, y, d);
      OpenPassageVisits(m, x, y, d);
      var r := Generate(m1, order, nx, ny);
      GrowsTrans(m, m1, r);
      r
    else
      m
  }

  /** Unfolding of `TryDirection` when the neighbour is entered. */
  lemma TryEnter(m: Maze, order: seq<seq<Dir>>, x: int, y: int, d: Dir, m1: Maze)
    requires Valid(m) && InMaze(m, x, y) && |order| == |m.cells|
    requires InMaze(m, x + Dx(d), y + Dy(d)) && At(m, x + Dx(d), y + Dy(d)) == 0
    requires m1 == OpenPassage(m, x, y, d)
    ensures Valid(m1) && InMaze(m1, x + Dx(d), y + Dy(d)) && |order| == |m1.cells|
    ensures ZeroCount(m1.cells) < ZeroCount(m.cells)
    ensures TryDirection(m, order, x, y, d) == Generate(m1, order, x + Dx(d), y + Dy(d))
  {
    OpenPassageVisits(m, x, y, d);
  }

  // ----- Mutual openings and four-bit masks -----

  /** Generation keeps openings mutual: a cell is open towards a direction
      exactly when the neighbour there exists and is open back, so no cell is
      ever opened onto the border. */
  lemma {:induction false} GenerateKeepsMutual(m: Maze, order: seq<seq<Dir>>, x: int, y: int)
    requires Valid(m) && InMaze(m, x, y) && |order| == |m.cells| && Mutual(m)
    ensures Mutual(Generate(m, order, x, y))
    decreases ZeroCount(m.cells), |order[Index(m, x, y)]|, 2
  {
    CarveKeepsMutual(m, order, x, y, order[Index(m, x, y)]);
  }

  lemma {:induction false} CarveKeepsMutual(m: Maze, order: seq<seq<Dir>>, x: int, y: int, ds: seq<Dir>)
    requires Valid(m) && InMaze(m, x, y) && |order| == |m.cells| && Mutual(m)
    ensures Mutual(Carve(m, order, x, y, ds))
    decreases ZeroCount(m.cells), |ds|, 1
  {
    if ds != [] {
      var t := TryDirection(m, order, x, y, ds[0]);
      TryKeepsMutual(m, order, x, y, ds[0]);
      ZeroCountShrinks(m.cells, t.cells);
      CarveKeepsMutual(t, order, x, y, ds[1..]);
    }
  }

  lemma {:induction false} TryKeepsMutual(m: Maze, order: seq<seq<Dir>>, x: int, y: int, d: Dir)
    requires Valid(m) && InMaze(m, x, y) && |order| == |m.cells| && Mutual(m)
    ensures Mutual(TryDirection(m, order, x, y, d))
    decreases ZeroCount(m.cells), 0, 0
  {
    if InMaze(m, x + Dx(d), y + Dy(d)) && At(m, x + Dx(d), y + Dy(d)) == 0 {
      var m1 := OpenPassage(m, x, y, d);
      TryEnter(m, order, x, y, d, m1);
      OpenPassageKeepsMutual(m, x, y, d);
      GenerateKeepsMutual(m1, order, x + Dx(d), y + Dy(d));
    }
  }

  /** Generation keeps every mask within the four direction bits. */
  lemma {:induction false} GenerateKeepsFourBit(m: Maze, order: seq<seq<Dir>>, x: int, y: int)
    requires Valid(m) && InMaze(m, x, y) && |order| == |m.cells| && AllFourBit(m)
    ensures AllFourBit(Generate(m, order, x, y))
    decreases ZeroCount(m.cells), |order[Index(m, x, y)]|, 2
  {
    CarveKeepsFourBit(m, order, x, y, order[Index(m, x, y)]);
  }

  lemma {:induction false} CarveKeepsFourBit(m: Maze, order: seq<seq<Dir>>, x: int, y: int, ds: seq<Dir>)
    requires Valid(m) && InMaze(m, x, y) && |order| == |m.cells| && AllFourBit(m)
    ensures AllFourBit(Carve(m, order, x, y, ds))
    decreases ZeroCount(m.cells), |ds|, 1
  {
    if ds != [] {
      var t := TryDirection(m, order, x, y, ds[0]);
      TryKeepsFourBit(m, order, x, y, ds[0]);
      ZeroCountShrinks(m.cells, t.cells);
      CarveKeepsFourBit(t, order, x, y, ds[1..]);
    }
  }

  lemma {:induction false} TryKeepsFourBit(m: Maze, order: seq<seq<Dir>>, x: int, y: int, d: Dir)
    requires Valid(m) && InMaze(m, x, y) && |order| == |m.cells| && AllFourBit(m)
    ensures AllFourBit(TryDirection(m, order, x, y, d))
    decreases ZeroCount(m.cells), 0, 0
  {
    if InMaze(m, x + Dx(d), y + Dy(d)) && At(m, x + Dx(d), y + Dy(d)) == 0 {
      var m1 := OpenPassage(m, x, y, d);
      TryEnter(m, order, x, y, d, m1);
      OpenPassageKeepsFourBit(m, x, y, d);
      GenerateKeepsFourBit(m1, order, x + Dx(d), y + Dy(d));
    }
  }

  // ----- Coverage -----

  /** Every in-maze neighbour of `(a, b)` has been visited (is non-zero). */
  ghost predicate Closed(m: Maze, a: int, b: int)
    requires Valid(m)
  {
    forall e: Dir :: InMaze(m, a + Dx(e), b + Dy(e)) ==> At(m, a + Dx(e), b + Dy(e)) != 0
  }

  lemma ClosedGrows(m: Maze, r: Maze, a: int, b: int)
    requires Valid(m) && Grows(m, r) && Closed(m, a, b)
    ensures Valid(r) && Closed(r, a, b)
  {
    forall e: Dir | InMaze(m, a + Dx(e), b + Dy(e)) ensures At(r, a + Dx(e), b + Dy(e)) != 0 {
      GrowsKeeps(m, r, a + Dx(e), b + Dy(e));
    }
  }

  /** Entering the neighbour in direction `d` leaves it visited. */
  lemma TryEnterVisits(m: Maze, order: seq<seq<Dir>>, x: int, y: int, d: Dir)
    requires Valid(m) && InMaze(m, x, y) && |order| == |m.cells|
    requires InMaze(m, x + Dx(d), y + Dy(d)) && At(m, x + Dx(d), y + Dy(d)) == 0
    ensures At(TryDirection(m, order, x, y, d), x + Dx(d), y + Dy(d)) != 0
  {
    var m1 := OpenPassage(m, x, y, d);
    TryEnter(m, order, x, y, d, m1);
    OpenPassageVisitsNeighbour(m, x, y, d);
    GrowsKeepsVisited(m1, TryDirection(m, order, x, y, d), x + Dx(d), y + Dy(d));
  }

  /** After one iteration in direction `d`, the neighbour there (if it is in
      the maze) is visited: it was entered now or had been before. */
  lemma TryVisitsNeighbour(m: Maze, order: seq<seq<Dir>>, x: int, y: int, d: Dir)
    requires Valid(m) && InMaze(m, x, y) && |order| == |m.cells|
    requires InMaze(m, x + Dx(d), y + Dy(d))
    ensures At(TryDirection(m, order, x, y, d), x + Dx(d), y + Dy(d)) != 0
  {
    if At(m, x + Dx(d), y + Dy(d)) == 0 {
      TryEnterVisits(m, order, x, y, d);
    } else {
      GrowsKeeps(m, TryDirection(m, order, x, y, d), x + Dx(d), y + Dy(d));
    }
  }

  /** After the loop over `ds`, every in-maze neighbour in one of those
      directions is visited. */
  lemma {:induction false} CarveVisitsNeighbours(m: Maze, order: seq<seq<Dir>>, x: int, y: int, ds: seq<Dir>)
    requires Valid(m) && InMaze(m, x, y) && |order| == |m.cells|
    ensures forall d | d in ds && InMaze(m, x + Dx(d), y + Dy(d)) ::
      At(Carve(m, order, x, y, ds), x + Dx(d), y + Dy(d)) != 0
    decreases |ds|
  {
    if ds != [] {
      var t := TryDirection(m, order, x, y, ds[0]);
      var r := Carve(t, order, x, y, ds[1..]);
      assert Carve(m, order, x, y, ds) == r;
      CarveVisitsNeighbours(t, order, x, y, ds[1..]);
      forall d | d in ds && InMaze(m, x + Dx(d), y + Dy(d)) ensures At(r, x + Dx(d), y + Dy(d)) != 0 {
        if d == ds[0] {
          TryVisitsNeighbour(m, order, x, y, d);
          GrowsKeeps(t, r, x + Dx(d), y + Dy(d));
        } else {
          assert d in ds[1..];
        }
      }
    }
  }

  /** A whole frame at `(x, y)` tries all four directions, so it leaves
      `(x, y)` closed. */
  lemma GenerateCloses(m: Maze, order: seq<seq<Dir>>, x: int, y: int, r: Maze)
    requires Valid(m) && InMaze(m, x, y) && |order| == |m.cells| && Shuffles(order)
    requires r == Generate(m, order, x, y)
    ensures Closed(r, x, y)
  {
    var o := order[Index(m, x, y)];
    assert IsShuffle(o);
    CarveVisitsNeighbours(m, order, x, y, o);
  }

  /** Every cell the frame at `(x, y)` visits is closed when the frame
      returns: a visited cell's own frame ran to completion before it, and a
      closed cell stays closed. The start `(x, y)` is closed too. */
  lemma {:induction false} GenerateClosesVisited(m: Maze, order: seq<seq<Dir>>, x: int, y: int, a: int, b: int, r: Maze)
    requires Valid(m) && InMaze(m, x, y) && |order| == |m.cells| && Shuffles(order)
    requires InMaze(m, a, b) && ((a == x && b == y) || At(m, a, b) == 0)
    requires r == Generate(m, order, x, y) && At(r, a, b) != 0
    ensures Closed(r, a, b)
    decreases ZeroCount(m.cells), |order[Index(m, x, y)]|, 2
  {
    if a == x && b == y {
      GenerateCloses(m, order, x, y, r);
    } else {
      CarveClosesVisited(m, order, x, y, order[Index(m, x, y)], a, b);
    }
  }

  lemma {:induction false} CarveClosesVisited(m: Maze, order: seq<seq<Dir>>, x: int, y: int, ds: seq<Dir>, a: int, b: int)
    requires Valid(m) && InMaze(m, x, y) && |order| == |m.cells| && Shuffles(order)
    requires InMaze(m, a, b) && !(a == x && b == y)
    requires At(m, a, b) == 0 && At(Carve(m, order, x, y, ds), a, b) != 0
    ensures Closed(Carve(m, order, x, y, ds), a, b)
    decreases ZeroCount(m.cells), |ds|, 1
  {
    if ds == [] {
      assert false;
    } else {
      var t := TryDirection(m, order, x, y, ds[0]);
      ZeroCountShrinks(m.cells, t.cells);
      if At(t, a, b) != 0 {
        TryClosesVisited(m, order, x, y, ds[0], a, b);
        ClosedGrows(t, Carve(t, order, x, y, ds[1..]), a, b);
      } else {
        CarveClosesVisited(t, order, x, y, ds[1..], a, b);
      }
    }
  }

  lemma {:induction false} TryClosesVisited(m: Maze, order: seq<seq<Dir>>, x: int, y: int, d: Dir, a: int, b: int)
    requires Valid(m) && InMaze(m, x, y) && |order| == |m.cells| && Shuffles(order)
    requires InMaze(m, a, b) && !(a == x && b == y)
    requires At(m, a, b) == 0 && At(TryDirection(m, order, x, y, d), a, b) != 0
    ensures Closed(TryDirection(m, order, x, y, d), a, b)
    decreases ZeroCount(m.cells), 0, 0
  {
    if InMaze(m, x + Dx(d), y + Dy(d)) && At(m, x + Dx(d), y + Dy(d)) == 0 {
      var m1 := OpenPassage(m, x, y, d);
      TryEnter(m, order, x, y, d, m1);
      if !(a == x + Dx(d) && b == y + Dy(d)) {
        OpenPassageElsewhere(m, x, y, d, a, b);
      }
      GenerateClosesVisited(m1, order, x + Dx(d), y + Dy(d), a, b, TryDirection(m, order, x, y, d));
    } else {
      assert false;
    }
  }

  // ----- Counting -----

  /** Every carve adds two open sides and visits one cell other than the
      frame's own, so open sides plus twice the unvisited cells other than
      `(x, y)` stay constant. */
  lemma {:induction false} GenerateBalances(m: Maze, order: seq<seq<Dir>>, x: int, y: int, r: Maze)
    requires Valid(m) && InMaze(m, x, y) && |order| == |m.cells| && Mutual(m)
    requires r == Generate(m, order, x, y)
    ensures OpenSides(r.cells) + 2 * Unvisited(r, x, y) == OpenSides(m.cells) + 2 * Unvisited(m, x, y)
    decreases ZeroCount(m.cells), |order[Index(m, x, y)]|, 2
  {
    CarveBalances(m, order, x, y, order[Index(m, x, y)]);
  }

  lemma {:induction false} CarveBalances(m: Maze, order: seq<seq<Dir>>, x: int, y: int, ds: seq<Dir>)
    requires Valid(m) && InMaze(m, x, y) && |order| == |m.cells| && Mutual(m)
    ensures var r := Carve(m, order, x, y, ds);
      OpenSides(r.cells) + 2 * Unvisited(r, x, y) == OpenSides(m.cells) + 2 * Unvisited(m, x, y)
    decreases ZeroCount(m.cells), |ds|, 1
  {
    if ds != [] {
      var t := TryDirection(m, order, x, y, ds[0]);
      TryBalances(m, order, x, y, ds[0]);
      TryKeepsMutual(m, order, x, y, ds[0]);
      ZeroCountShrinks(m.cells, t.cells);
      CarveBalances(t, order, x, y, ds[1..]);
    }
  }

  lemma {:induction false} TryBalances(m: Maze, order: seq<seq<Dir>>, x: int, y: int, d: Dir)
    requires Valid(m) && InMaze(m, x, y) && |order| == |m.cells| && Mutual(m)
    ensures var r := TryDirection(m, order, x, y, d);
      OpenSides(r.cells) + 2 * Unvisited(r, x, y) == OpenSides(m.cells) + 2 * Unvisited(m, x, y)
    decreases ZeroCount(m.cells), 0, 0
  {
    if InMaze(m, x + Dx(d), y + Dy(d)) && At(m, x + Dx(d), y + Dy(d)) == 0 {
      var m1 := OpenPassage(m, x, y, d);
      TryEnter(m, order, x, y, d, m1);
      OpenPassageKeepsMutual(m, x, y, d);
      GenerateBalances(m1, order, x + Dx(d), y + Dy(d), TryDirection(m, order, x, y, d));
      EnterBalances(m, x, y, d, m1, TryDirection(m, order, x, y, d));
    }
  }

  // ----- Reachability -----

  /** Every cell the frame at `(x, y)` visits is reachable from `(x, y)`
      through open passages. */
  lemma {:induction false} GenerateReaches(m: Maze, order: seq<seq<Dir>>, x: int, y: int, a: int, b: int, r: Maze)
    requires Valid(m) && InMaze(m, x, y) && |order| == |m.cells|
    requires InMaze(m, a, b) && At(m, a, b) == 0
    requires r == Generate(m, order, x, y) && At(r, a, b) != 0
    ensures Reachable(r, x, y, a, b)
    decreases ZeroCount(m.cells), |order[Index(m, x, y)]|, 2
  {
    if a == x && b == y {
      ReachesItself(r, x, y);
    } else {
      CarveReaches(m, order, x, y, order[Index(m, x, y)], a, b);
    }
  }

  lemma {:induction false} CarveReaches(m: Maze, order: seq<seq<Dir>>, x: int, y: int, ds: seq<Dir>, a: int, b: int)
    requires Valid(m) && InMaze(m, x, y) && |order| == |m.cells|
    requires InMaze(m, a, b) && !(a == x && b == y)
    requires At(m, a, b) == 0 && At(Carve(m, order, x, y, ds), a, b) != 0
    ensures Reachable(Carve(m, order, x, y, ds), x, y, a, b)
    decreases ZeroCount(m.cells), |ds|, 1
  {
    if ds == [] {
      assert false;
    } else {
      var t := TryDirection(m, order, x, y, ds[0]);
      ZeroCountShrinks(m.cells, t.cells);
      if At(t, a, b) != 0 {
        TryReaches(m, order, x, y, ds[0], a, b);
        ReachableGrows(t, Carve(t, order, x, y, ds[1..]), x, y, a, b);
      } else {
        CarveReaches(t, order, x, y, ds[1..], a, b);
      }
    }
  }

  lemma {:induction false} TryReaches(m: Maze, order: seq<seq<Dir>>, x: int, y: int, d: Dir, a: int, b: int)
    requires Valid(m) && InMaze(m, x, y) && |order| == |m.cells|
    requires InMaze(m, a, b) && !(a == x && b == y)
    requires At(m, a, b) == 0 && At(TryDirection(m, order, x, y, d), a, b) != 0
    ensures Reachable(TryDirection(m, order, x, y, d), x, y, a, b)
    decreases ZeroCount(m.cells), 0, 0
  {
    if InMaze(m, x + Dx(d), y + Dy(d)) && At(m, x + Dx(d), y + Dy(d)) == 0 {
      var m1 := OpenPassage(m, x, y, d);
      TryEnter(m, order, x, y, d, m1);
      if !(a == x + Dx(d) && b == y + Dy(d)) {
        OpenPassageElsewhere(m, x, y, d, a, b);
        GenerateReaches(m1, order, x + Dx(d), y + Dy(d), a, b, TryDirection(m, order, x, y, d));
      }
      EnterReaches(m, x, y, d, TryDirection(m, order, x, y, d), a, b);
    } else {
      assert false;
    }
  }

  // ----- The whole maze -----

  /** Every visited cell, and the start, has all its neighbours visited. */
  ghost predicate VisitedClosed(r: Maze, sx: int, sy: int)
    requires Valid(r)
  {
    forall a, b {:trigger Closed(r, a, b)} |
      InMaze(r, a, b) && (At(r, a, b) != 0 || (a == sx && b == sy)) :: Closed(r, a, b)
  }

  /** The grid is connected: when visits spread to all neighbours, every
      cell is visited, except possibly the start. The induction follows a
      path that first moves along the column towards the start's row, then
      along that row. */
  lemma {:induction false} SpreadTo(r: Maze, sx: int, sy: int, a: int, b: int)
    requires Valid(r) && InMaze(r, sx, sy) && InMaze(r, a, b) && VisitedClosed(r, sx, sy)
    ensures At(r, a, b) != 0 || (a == sx && b == sy)
    decreases (if a < sx then sx - a else a - sx) + (if b < sy then sy - b else b - sy)
  {
    if !(a == sx && b == sy) {
      var d: Dir := if b > sy then TOP else if b < sy then BOTTOM else if a > sx then LEFT else RIGHT;
      NamesMatchOffsets();
      FlipNegatesOffset(d);
      var pa, pb := a + Dx(d), b + Dy(d);
      SpreadTo(r, sx, sy, pa, pb);
      assert Closed(r, pa, pb);
      assert pa + Dx(Flip(d)) == a && pb + Dy(Flip(d)) == b;
    }
  }

  /** Generating from a fresh grid visits every cell except possibly the
      start. */
  lemma GenerateVisitsOthers(w: int, h: int, order: seq<seq<Dir>>, sx: int, sy: int, r: Maze)
    requires 1 <= w && 1 <= h && w * h <= INT_MAX && 0 <= sx < w && 0 <= sy < h
    requires |order| == w * h && Shuffles(order)
    requires r == Generate(Empty(w, h), order, sx, sy)
    ensures Valid(r) && r.width == w && r.height == h
    ensures forall a, b | InMaze(r, a, b) && !(a == sx && b == sy) :: At(r, a, b) != 0
  {
    var m := Empty(w, h);
    forall a, b | InMaze(r, a, b) && (At(r, a, b) != 0 || (a == sx && b == sy)) ensures Closed(r, a, b) {
      if a == sx && b == sy {
        GenerateCloses(m, order, sx, sy, r);
      } else {
        assert At(m, a, b) == 0;
        GenerateClosesVisited(m, order, sx, sy, a, b, r);
      }
    }
    forall a, b | InMaze(r, a, b) && !(a == sx && b == sy) ensures At(r, a, b) != 0 {
      SpreadTo(r, sx, sy, a, b);
    }
  }

  /** A maze of two or more cells visits the start as well: its first
      carve opens the start towards a neighbour. */
  lemma GenerateVisitsStart(w: int, h: int, order: seq<seq<Dir>>, sx: int, sy: int, r: Maze)
    requires 1 <= w && 1 <= h && w * h <= INT_MAX && 0 <= sx < w && 0 <= sy < h
    requires |order| == w * h && Shuffles(order) && 2 <= w * h
    requires r == Generate(Empty(w, h), order, sx, sy)
    ensures Valid(r) && At(r, sx, sy) != 0
  {
    var m := Empty(w, h);
    GenerateVisitsOthers(w, h, order, sx, sy, r);
    var a, b := if sx + 1 < w then sx + 1 else if 0 < sx then sx - 1 else sx,
                if sx + 1 < w || 0 < sx then sy else if sy + 1 < h then sy + 1 else sy - 1;
    assert 2 <= w || 2 <= h by {
      if w < 2 && h < 2 {
        assert false;
      }
    }
    assert InMaze(m, a, b) && At(m, a, b) == 0;
    GenerateReaches(m, order, sx, sy, a, b, r);
    var p :| Walk(r, sx, sy, p) == Some((a, b));
    WalkLeaves(r, sx, sy, p, a, b);
  }

  /** Every cell of the generated maze is reachable from the start. */
  lemma GenerateConnects(w: int, h: int, order: seq<seq<Dir>>, sx: int, sy: int, r: Maze)
    requires 1 <= w && 1 <= h && w * h <= INT_MAX && 0 <= sx < w && 0 <= sy < h
    requires |order| == w * h && Shuffles(order)
    requires r == Generate(Empty(w, h), order, sx, sy)
    ensures Valid(r) && forall a, b | InMaze(r, a, b) :: Reachable(r, sx, sy, a, b)
  {
    var m := Empty(w, h);
    GenerateVisitsOthers(w, h, order, sx, sy, r);
    forall a, b | InMaze(r, a, b) ensures Reachable(r, sx, sy, a, b) {
      if a == sx && b == sy {
        ReachesItself(r, sx, sy);
      } else {
        assert At(m, a, b) == 0;
        GenerateReaches(m, order, sx, sy, a, b, r);
      }
    }
  }

  /** The generated maze has exactly `w*h - 1` passages: twice that many
      open sides, each passage being open on both of its cells. */
  lemma GenerateCountsPassages(w: int, h: int, order: seq<seq<Dir>>, sx: int, sy: int, r: Maze)
    requires 1 <= w && 1 <= h && w * h <= INT_MAX && 0 <= sx < w && 0 <= sy < h
    requires |order| == w * h && Shuffles(order)
    requires r == Generate(Empty(w, h), order, sx, sy)
    ensures OpenSides(r.cells) == 2 * (w * h - 1)
  {
    var m := Empty(w, h);
    EmptyMutual(w, h);
    GenerateBalances(m, order, sx, sy, r);
    OpenSidesZero(m.cells);
    ZeroCountExtremes(m.cells);
    assert At(m, sx, sy) == 0;
    GenerateVisitsOthers(w, h, order, sx, sy, r);
    var i := Index(r, sx, sy);
    forall j | 0 <= j < |r.cells| && j != i ensures r.cells[j] != 0 {
      var c := Coords(r, j);
      IndexInjective(r, c.0, c.1, sx, sy);
      assert At(r, c.0, c.1) != 0;
    }
    ZeroCountOnly(r.cells, i);
  }

  /** Generation keeps openings mutual and masks within four bits. */
  lemma GenerateIsWellFormed(w: int, h: int, order: seq<seq<Dir>>, sx: int, sy: int, r: Maze)
    requires 1 <= w && 1 <= h && w * h <= INT_MAX && 0 <= sx < w && 0 <= sy < h
    requires |order| == w * h
    requires r == Generate(Empty(w, h), order, sx, sy)
    ensures Valid(r) && r.width == w && r.height == h
    ensures Mutual(r) && AllFourBit(r)
  {
    EmptyMutual(w, h);
    GenerateKeepsMutual(Empty(w, h), order, sx, sy);
    GenerateKeepsFourBit(Empty(w, h), order, sx, sy);
  }

  /** With no neighbour in the maze, the loop changes nothing. */
  lemma {:induction false} CarveIsolated(m: Maze, order: seq<seq<Dir>>, x: int, y: int, ds: seq<Dir>)
    requires Valid(m) && InMaze(m, x, y) && |order| == |m.cells|
    requires forall d: Dir :: !InMaze(m, x + Dx(d), y + Dy(d))
    ensures Carve(m, order, x, y, ds) == m
    decreases |ds|
  {
    if ds != [] {
      assert TryDirection(m, order, x, y, ds[0]) == m;
      CarveIsolated(m, order, x, y, ds[1..]);
    }
  }

  /** A 1x1 maze is never carved: its only cell keeps all four walls. */
  lemma GenerateSingleCell(order: seq<seq<Dir>>)
    requires |order| == 1
    ensures Generate(Empty(1, 1), order, 0, 0).cells == [0]
  {
    NamesMatchOffsets();
    CarveIsolated(Empty(1, 1), order, 0, 0, order[0]);
  }
}

=== FILE: grid.dfy ===
/** The maze grid: a row-major sequence of wall masks, one byte per cell.

    `InMaze` is the bounds test and `Index` the row-major position of a cell;
    together they make `[0, width) x [0, height)` correspond one-to-one to the
    positions of `cells`. The only mutator is `OpenPassage`, which sets a
    direction bit on a cell and the opposite bit on its neighbour.
 */
module MazeGrid {
  import opened Directions
  import opened Optional

  /** Largest value of the source's `int`. */
  const INT_MAX: int := 0x7fff_ffff

  /** A cell's wall mask (the source stores a `char` per cell). */
  type Mask = bv8

  datatype Maze = Maze(width: int, height: int, cells: seq<Mask>)

  /** Positive dimensions whose product is a valid `int`, and one mask per cell. */
  predicate Valid(m: Maze) {
    && 1 <= m.width && 1 <= m.height
    && m.width * m.height <= INT_MAX
    && |m.cells| == m.width * m.height
  }

  /** A fresh grid: every cell closed on all four sides. */
  function Empty(width: int, height: int): (m: Maze)
    requires 1 <= width && 1 <= height && width * height <= INT_MAX
    ensures Valid(m) && m.width == width && m.height == height
    ensures forall i :: 0 <= i < |m.cells| ==> m.cells[i] == 0
  {
    Maze(width, height, seq(width * height, _ => 0))
  }

  /** A fresh grid has no openings, so its openings are trivially mutual. */
  lemma EmptyMutual(width: int, height: int)
    requires 1 <= width && 1 <= height && width * height <= INT_MAX
    ensures Mutual(Empty(width, height)) && AllFourBit(Empty(width, height))
  {
    var m := Empty(width, height);
    forall x, y, d: Dir ensures MutualAt(m, x, y, d) {
      if InMaze(m, x, y) {
        assert At(m, x, y) == 0;
        if InMaze(m, x + Dx(d), y + Dy(d)) {
          assert At(m, x + Dx(d), y + Dy(d)) == 0;
        }
      }
    }
  }

  /** `isInMaze`. */
  predicate InMaze(m: Maze, x: int, y: int) {
    0 <= x < m.width && 0 <= y < m.height
  }

  // Small facts of integer multiplication used for the row-major layout.

  lemma MulLeft(w: int, a: int, b: int)
    requires 0 <= w && a <= b
    ensures w * a <= w * b
  {
    assert w * b - w * a == w * (b - a);
  }

  lemma MulUnit(w: int, k: int)
    requires 1 <= w && -w < w * k < w
    ensures k == 0
  {
    if k >= 1 {
      MulLeft(w, 1, k);
    } else if k <= -1 {
      MulLeft(w, k, -1);
    }
  }

  lemma RowMajorDivMod(w: int, x: int, y: int)
    requires 0 <= x < w && 0 <= y
    ensures (x + w * y) / w == y && (x + w * y) % w == x
  {
    var i := x + w * y;
    var q, r := i / w, i % w;
    assert w * (q - y) == x - r;
    MulUnit(w, q - y);
  }

  /** `index`: the row-major position of an in-maze cell. It lies inside the
      cell array and `x`, `y` are recovered from it by `%` and `/`, so no two
      cells share a position. */
  function Index(m: Maze, x: int, y: int): (i: int)
    requires Valid(m) && InMaze(m, x, y)
    ensures 0 <= i < |m.cells|
  {
    MulLeft(m.width, y, m.height - 1);
    assert m.width * (m.height - 1) == m.width * m.height - m.width;
    x + m.width * y
  }

  /** `x` and `y` are recovered from the index by `%` and `/`. */
  lemma IndexInverse(m: Maze, x: int, y: int)
    requires Valid(m) && InMaze(m, x, y)
    ensures Index(m, x, y) % m.width == x && Index(m, x, y) / m.width == y
  {
    RowMajorDivMod(m.width, x, y);
  }

  /** The inverse of `Index`: every position of the cell array is the index
      of exactly one in-maze cell. */
  function Coords(m: Maze, i: int): (c: (int, int))
    requires Valid(m) && 0 <= i < |m.cells|
    ensures InMaze(m, c.0, c.1) && Index(m, c.0, c.1) == i
  {
    RowOfPosition(m.width, m.height, i);
    IndexInverse(m, i % m.width, i / m.width);
    (i % m.width, i / m.width)
  }

  lemma RowOfPosition(w: int, h: int, i: int)
    requires 1 <= w && 0 <= i < w * h
    ensures 0 <= i / w < h && i == i % w + w * (i / w)
  {
    var y := i / w;
    if y >= h {
      MulLeft(w, h, y);
      assert false;
    }
  }

  /** `index` is injective on the maze. */
  lemma IndexInjective(m: Maze, x: int, y: int, a: int, b: int)
    requires Valid(m) && InMaze(m, x, y) && InMaze(m, a, b)
    ensures Index(m, x, y) == Index(m, a, b) <==> x == a && y == b
  {
    IndexInverse(m, x, y);
    IndexInverse(m, a, b);
  }

  /** The mask of an in-maze cell. */
  function At(m: Maze, x: int, y: int): (mask: Mask)
    requires Valid(m) && InMaze(m, x, y)
  {
    m.cells[Index(m, x, y)]
  }

  /** Whether cell `(x, y)` has its passage in direction `d` open. */
  predicate Opens(m: Maze, x: int, y: int, d: Dir)
    requires Valid(m) && InMaze(m, x, y)
  {
    Has(At(m, x, y), d)
  }

  /** Whether the neighbour of `(x, y)` in direction `d` exists and has the
      passage back towards `(x, y)` open. */
  predicate OpensBack(m: Maze, x: int, y: int, d: Dir)
    requires Valid(m)
  {
    InMaze(m, x + Dx(d), y + Dy(d)) && Opens(m, x + Dx(d), y + Dy(d), Flip(d))
  }

  /** At one cell side: the side is open exactly when the neighbour there
      exists and is open back. */
  ghost predicate MutualAt(m: Maze, x: int, y: int, d: Dir)
    requires Valid(m)
  {
    InMaze(m, x, y) ==> (Opens(m, x, y, d) <==> OpensBack(m, x, y, d))
  }

  /** Openings are mutual and never face the border. */
  ghost predicate Mutual(m: Maze)
    requires Valid(m)
  {
    forall x, y, d: Dir :: MutualAt(m, x, y, d)
  }

  /** Every mask uses only the four direction bits. */
  predicate AllFourBit(m: Maze) {
    forall i :: 0 <= i < |m.cells| ==> FourBit(m.cells[i])
  }

  /** Every bit set in `u` is set in `v`. */
  predicate Within(u: Mask, v: Mask) {
    u & v == u
  }

  /** Cell by cell, `b` keeps every bit of `a`. The trigger is the cell-wise
      relation itself, so the fact is used only where a proof asks for it. */
  predicate CellsGrow(a: seq<Mask>, b: seq<Mask>) {
    && |b| == |a|
    && forall i {:trigger Within(a[i], b[i])} :: 0 <= i < |a| ==> Within(a[i], b[i])
  }

  /** `r` is `m` with bits possibly added and none removed. */
  predicate Grows(m: Maze, r: Maze) {
    && r.width == m.width && r.height == m.height
    && CellsGrow(m.cells, r.cells)
  }

  lemma GrowsTrans(a: Maze, b: Maze, c: Maze)
    requires Grows(a, b) && Grows(b, c)
    ensures Grows(a, c)
  {
    forall i | 0 <= i < |a.cells| ensures Within(a.cells[i], c.cells[i]) {
      assert Within(a.cells[i], b.cells[i]) && Within(b.cells[i], c.cells[i]);
    }
  }

  /** Growing keeps every open side open, and so every non-zero cell non-zero. */
  lemma GrowsKeeps(m: Maze, r: Maze, x: int, y: int)
    requires Valid(m) && Grows(m, r) && InMaze(m, x, y)
    ensures Valid(r)
    ensures forall d: Dir :: Opens(m, x, y, d) ==> Opens(r, x, y, d)
    ensures At(m, x, y) != 0 ==> At(r, x, y) != 0
  {
    var i := Index(m, x, y);
    assert At(r, x, y) == r.cells[i];
    assert Within(m.cells[i], r.cells[i]);
  }

  /** One carve step of the generator: set `1 << d` on `(x, y)` and
      `opposite[d]` on its neighbour. */
  function OpenPassage(m: Maze, x: int, y: int, d: Dir): (r: Maze)
    requires Valid(m) && InMaze(m, x, y) && InMaze(m, x + Dx(d), y + Dy(d))
    ensures Valid(r) && Grows(m, r)
  {
    var i := Index(m, x, y);
    var j := Index(m, x + Dx(d), y + Dy(d));
    var c1 := m.cells[i := m.cells[i] | Bit(d)];
    m.(cells := c1[j := c1[j] | OppositeMask(d)])
  }

  /** `OpenPassage` changes exactly the two cells of the passage. */
  lemma AtOpenPassage(m: Maze, x: int, y: int, d: Dir, a: int, b: int)
    requires Valid(m) && InMaze(m, x, y) && InMaze(m, x + Dx(d), y + Dy(d))
    requires InMaze(m, a, b)
    ensures At(OpenPassage(m, x, y, d), a, b) ==
      if a == x && b == y then At(m, x, y) | Bit(d)
      else if a == x + Dx(d) && b == y + Dy(d) then At(m, a, b) | OppositeMask(d)
      else At(m, a, b)
  {
    UnitSteps(d, d);
    IndexInjective(m, x, y, a, b);
    IndexInjective(m, x + Dx(d), y + Dy(d), a, b);
    IndexInjective(m, x, y, x + Dx(d), y + Dy(d));
  }

  /** A visited cell stays visited as the maze grows. */
  lemma GrowsKeepsVisited(m: Maze, r: Maze, x: int, y: int)
    requires Valid(m) && Grows(m, r) && InMaze(m, x, y) && At(m, x, y) != 0
    ensures At(r, x, y) != 0
  {
    GrowsKeeps(m, r, x, y);
  }

  /** Opening a passage visits the neighbour it leads to. */
  lemma OpenPassageVisitsNeighbour(m: Maze, x: int, y: int, d: Dir)
    requires Valid(m) && InMaze(m, x, y) && InMaze(m, x + Dx(d), y + Dy(d))
    ensures At(OpenPassage(m, x, y, d), x + Dx(d), y + Dy(d)) != 0
  {
    OpenPassageOpens(m, x, y, d);
  }

  /** One carve step opens both cells of the passage towards each other,
      so both become non-zero; the two cells are distinct. */
  lemma OpenPassageOpens(m: Maze, x: int, y: int, d: Dir)
    requires Valid(m) && InMaze(m, x, y) && InMaze(m, x + Dx(d), y + Dy(d))
    ensures !(x + Dx(d) == x && y + Dy(d) == y)
    ensures Opens(OpenPassage(m, x, y, d), x, y, d)
    ensures Opens(OpenPassage(m, x, y, d), x + Dx(d), y + Dy(d), Flip(d))
    ensures At(OpenPassage(m, x, y, d), x, y) != 0
    ensures At(OpenPassage(m, x, y, d), x + Dx(d), y + Dy(d)) != 0
  {
    UnitSteps(d, d);
    OppositeIsFlippedBit(d);
    AtOpenPassage(m, x, y, d, x, y);
    AtOpenPassage(m, x, y, d, x + Dx(d), y + Dy(d));
    HasAfterSet(At(m, x, y), d, d);
    HasAfterSet(At(m, x + Dx(d), y + Dy(d)), Flip(d), Flip(d));
  }

  /** One carve step leaves every cell other than the two of the passage
      as it was. */
  lemma OpenPassageElsewhere(m: Maze, x: int, y: int, d: Dir, a: int, b: int)
    requires Valid(m) && InMaze(m, x, y) && InMaze(m, x + Dx(d), y + Dy(d)) && InMaze(m, a, b)
    requires !(a == x && b == y) && !(a == x + Dx(d) && b == y + Dy(d))
    ensures At(OpenPassage(m, x, y, d), a, b) == At(m, a, b)
  {
    AtOpenPassage(m, x, y, d, a, b);
  }

  /** After `OpenPassage` a side is open iff it was open before or it is one
      of the two sides of the new passage. */
  lemma OpensAfterOpenPassage(m: Maze, x: int, y: int, d: Dir, a: int, b: int, e: Dir)
    requires Valid(m) && InMaze(m, x, y) && InMaze(m, x + Dx(d), y + Dy(d))
    requires InMaze(m, a, b)
    ensures Opens(OpenPassage(m, x, y, d), a, b, e) <==>
      || Opens(m, a, b, e)
      || (a == x && b == y && e == d)
      || (a == x + Dx(d) && b == y + Dy(d) && e == Flip(d))
  {
    AtOpenPassage(m, x, y, d, a, b);
    UnitSteps(d, d);
    var v := At(m, a, b);
    if a == x && b == y {
      HasAfterSet(v, d, e);
    } else if a == x + Dx(d) && b == y + Dy(d) {
      OppositeIsFlippedBit(d);
      HasAfterSet(v, Flip(d), e);
    }
  }

  /** The two sides of the passage between `(x, y)` and its neighbour in `d`
      face each other: each is reached from the other by its own direction. */
  lemma PassageSidesFace(x: int, y: int, d: Dir, a: int, b: int, e: Dir)
    ensures (a == x && b == y && e == d) <==>
      (a + Dx(e) == x + Dx(d) && b + Dy(e) == y + Dy(d) && Flip(e) == Flip(d))
    ensures (a == x + Dx(d) && b == y + Dy(d) && e == Flip(d)) <==>
      (a + Dx(e) == x && b + Dy(e) == y && Flip(e) == d)
  {
    OppositeIsFlippedBit(d);
    OppositeIsFlippedBit(e);
    FlipNegatesOffset(d);
  }

  /** Mutual openings survive carving, at one cell side. */
  lemma OpenPassageKeepsMutualAt(m: Maze, x: int, y: int, d: Dir, a: int, b: int, e: Dir)
    requires Valid(m) && InMaze(m, x, y) && InMaze(m, x + Dx(d), y + Dy(d))
    requires MutualAt(m, a, b, e)
    ensures MutualAt(OpenPassage(m, x, y, d), a, b, e)
  {
    if InMaze(m, a, b) {
      var r := OpenPassage(m, x, y, d);
      var a2, b2 := a + Dx(e), b + Dy(e);
      var sideA := a == x && b == y && e == d;
      var sideB := a == x + Dx(d) && b == y + Dy(d) && e == Flip(d);
      assert Opens(r, a, b, e) <==> Opens(m, a, b, e) || sideA || sideB by {
        OpensAfterOpenPassage(m, x, y, d, a, b, e);
      }
      if InMaze(m, a2, b2) {
        assert OpensBack(r, a, b, e) <==> OpensBack(m, a, b, e) || sideA || sideB by {
          PassageSidesFace(x, y, d, a, b, e);
          OpensAfterOpenPassage(m, x, y, d, a2, b2, Flip(e));
        }
      } else {
        assert !sideA && !sideB by {
          PassageSidesFace(x, y, d, a, b, e);
        }
      }
    }
  }

  /** Carving a passage between two in-maze cells keeps openings mutual. */
  lemma OpenPassageKeepsMutual(m: Maze, x: int, y: int, d: Dir)
    requires Valid(m) && Mutual(m)
    requires InMaze(m, x, y) && InMaze(m, x + Dx(d), y + Dy(d))
    ensures Mutual(OpenPassage(m, x, y, d))
  {
    forall a, b, e: Dir ensures MutualAt(OpenPassage(m, x, y, d), a, b, e) {
      assert MutualAt(m, a, b, e);
      OpenPassageKeepsMutualAt(m, x, y, d, a, b, e);
    }
  }

  /** Carving keeps every mask within the four direction bits. */
  lemma OpenPassageKeepsFourBit(m: Maze, x: int, y: int, d: Dir)
    requires Valid(m) && AllFourBit(m)
    requires InMaze(m, x, y) && InMaze(m, x + Dx(d), y + Dy(d))
    ensures AllFourBit(OpenPassage(m, x, y, d))
  {
    OppositeIsFlippedBit(d);
    EnumIsOneHot();
  }

  /** The number of cells with every wall still standing (not yet visited). */
  function ZeroCount(s: seq<Mask>): (n: nat)
    ensures n <= |s|
  {
    if s == [] then 0 else (if s[0] == 0 then 1 else 0) + ZeroCount(s[1..])
  }

  /** The number of open sides over the grid; with mutual openings, twice the
      number of passages. */
  function OpenSides(s: seq<Mask>): (n: nat) {
    if s == [] then 0 else Sides(s[0]) + OpenSides(s[1..])
  }

  lemma {:induction false} ZeroCountUpdate(s: seq<Mask>, i: int, v: Mask)
    requires 0 <= i < |s|
    ensures ZeroCount(s[i := v]) + (if s[i] == 0 then 1 else 0) == ZeroCount(s) + (if v == 0 then 1 else 0)
  {
    if i > 0 {
      assert s[i := v][1..] == s[1..][i - 1 := v];
      ZeroCountUpdate(s[1..], i - 1, v);
    }
  }

  lemma {:induction false} OpenSidesUpdate(s: seq<Mask>, i: int, v: Mask)
    requires 0 <= i < |s|
    ensures OpenSides(s[i := v]) + Sides(s[i]) == OpenSides(s) + Sides(v)
  {
    if i > 0 {
      assert s[i := v][1..] == s[1..][i - 1 := v];
      OpenSidesUpdate(s[1..], i - 1, v);
    }
  }

  /** No zero cell is left exactly when every cell is non-zero, and every
      cell is zero exactly when the count is the full length. */
  lemma {:induction false} ZeroCountExtremes(s: seq<Mask>)
    ensures ZeroCount(s) == 0 <==> forall i :: 0 <= i < |s| ==> s[i] != 0
    ensures ZeroCount(s) == |s| <==> forall i :: 0 <= i < |s| ==> s[i] == 0
  {
    if s != [] {
      ZeroCountExtremes(s[1..]);
      assert forall i :: 1 <= i < |s| ==> s[i] == s[1..][i - 1];
    }
  }

  /** A grid of closed cells has no open side. */
  lemma {:induction false} OpenSidesZero(s: seq<Mask>)
    requires forall i :: 0 <= i < |s| ==> s[i] == 0
    ensures OpenSides(s) == 0
  {
    if s != [] {
      assert Sides(s[0]) == 0;
      OpenSidesZero(s[1..]);
    }
  }

  /** Setting a closed direction's bit in one cell adds one open side,
      and removes one zero cell if the cell was zero. */
  lemma SetBitCounts(s: seq<Mask>, t: seq<Mask>, i: int, d: Dir)
    requires 0 <= i < |s| && !Has(s[i], d) && t == s[i := s[i] | Bit(d)]
    ensures OpenSides(t) == OpenSides(s) + 1
    ensures ZeroCount(t) + (if s[i] == 0 then 1 else 0) == ZeroCount(s)
    ensures t[i] != 0
  {
    SidesAfterSet(s[i], d);
    HasAfterSet(s[i], d, d);
    OpenSidesUpdate(s, i, t[i]);
    ZeroCountUpdate(s, i, t[i]);
  }

  /** Setting closed bits in two different cells, the second of them zero,
      adds two open sides and removes the zero cells among the two. */
  lemma SetTwoBitsCounts(s: seq<Mask>, t: seq<Mask>, i: int, di: Dir, j: int, dj: Dir)
    requires 0 <= i < |s| && 0 <= j < |s| && i != j
    requires !Has(s[i], di) && s[j] == 0
    requires t == s[i := s[i] | Bit(di)][j := s[j] | Bit(dj)]
    ensures OpenSides(t) == OpenSides(s) + 2
    ensures ZeroCount(t) + 1 + (if s[i] == 0 then 1 else 0) == ZeroCount(s)
    ensures t[i] != 0
  {
    var c1 := s[i := s[i] | Bit(di)];
    SetBitCounts(s, c1, i, di);
    assert c1[j] == 0 && !Has(c1[j], dj);
    SetBitCounts(c1, t, j, dj);
  }

  /** `OpenPassage` as an update of two distinct positions of `cells`. */
  lemma OpenPassageCells(m: Maze, x: int, y: int, d: Dir)
    requires Valid(m) && InMaze(m, x, y) && InMaze(m, x + Dx(d), y + Dy(d))
    ensures var i, j := Index(m, x, y), Index(m, x + Dx(d), y + Dy(d));
      && i != j
      && OpenPassage(m, x, y, d).cells == m.cells[i := m.cells[i] | Bit(d)][j := m.cells[j] | Bit(Flip(d))]
  {
    UnitSteps(d, d);
    IndexInjective(m, x, y, x + Dx(d), y + Dy(d));
    OppositeIsFlippedBit(d);
  }

  /** Carving a passage from a cell not yet open that way towards a zero
      neighbour adds two open sides, visits the neighbour, visits `(x, y)`
      if it was still zero, and leaves `(x, y)` non-zero. */
  lemma OpenPassageCounts(m: Maze, x: int, y: int, d: Dir)
    requires Valid(m) && InMaze(m, x, y) && InMaze(m, x + Dx(d), y + Dy(d))
    requires At(m, x + Dx(d), y + Dy(d)) == 0 && !Opens(m, x, y, d)
    ensures var r := OpenPassage(m, x, y, d);
      && OpenSides(r.cells) == OpenSides(m.cells) + 2
      && ZeroCount(r.cells) + 1 + (if At(m, x, y) == 0 then 1 else 0) == ZeroCount(m.cells)
      && At(r, x, y) != 0
  {
    OpenPassageAddsSides(m, x, y, d);
    OpenPassageVisitsBoth(m, x, y, d);
    OpenPassageOpens(m, x, y, d);
  }

  /** The side count half of `OpenPassageCounts`. */
  lemma OpenPassageAddsSides(m: Maze, x: int, y: int, d: Dir)
    requires Valid(m) && InMaze(m, x, y) && InMaze(m, x + Dx(d), y + Dy(d))
    requires At(m, x + Dx(d), y + Dy(d)) == 0 && !Opens(m, x, y, d)
    ensures OpenSides(OpenPassage(m, x, y, d).cells) == OpenSides(m.cells) + 2
  {
    var i, j := Index(m, x, y), Index(m, x + Dx(d), y + Dy(d));
    OpenPassageCells(m, x, y, d);
    SetTwoBitsCounts(m.cells, OpenPassage(m, x, y, d).cells, i, d, j, Flip(d));
  }

  /** The zero-cell half of `OpenPassageCounts`. */
  lemma OpenPassageVisitsBoth(m: Maze, x: int, y: int, d: Dir)
    requires Valid(m) && InMaze(m, x, y) && InMaze(m, x + Dx(d), y + Dy(d))
    requires At(m, x + Dx(d), y + Dy(d)) == 0 && !Opens(m, x, y, d)
    ensures ZeroCount(OpenPassage(m, x, y, d).cells) + 1 + (if At(m, x, y) == 0 then 1 else 0)
      == ZeroCount(m.cells)
  {
    var i, j := Index(m, x, y), Index(m, x + Dx(d), y + Dy(d));
    OpenPassageCells(m, x, y, d);
    SetTwoBitsCounts(m.cells, OpenPassage(m, x, y, d).cells, i, d, j, Flip(d));
  }

  /** The number of unvisited cells other than `(x, y)`. */
  function Unvisited(m: Maze, x: int, y: int): (n: int)
    requires Valid(m) && InMaze(m, x, y)
  {
    ZeroCount(m.cells) - (if At(m, x, y) == 0 then 1 else 0)
  }

  /** With mutual openings, a cell is never open towards an unvisited
      neighbour. */
  lemma MutualClosedTowardsZero(m: Maze, x: int, y: int, d: Dir)
    requires Valid(m) && Mutual(m) && InMaze(m, x, y) && InMaze(m, x + Dx(d), y + Dy(d))
    requires At(m, x + Dx(d), y + Dy(d)) == 0
    ensures !Opens(m, x, y, d)
  {
    assert MutualAt(m, x, y, d);
  }

  /** Entering a zero neighbour from `(x, y)` and running its frame keeps
      the balance between open sides and unvisited cells, seen from
      `(x, y)`, when the frame keeps it seen from the neighbour. */
  lemma EnterBalances(m: Maze, x: int, y: int, d: Dir, m1: Maze, r: Maze)
    requires Valid(m) && Mutual(m) && InMaze(m, x, y) && InMaze(m, x + Dx(d), y + Dy(d))
    requires At(m, x + Dx(d), y + Dy(d)) == 0 && m1 == OpenPassage(m, x, y, d)
    requires Grows(m1, r)
    requires OpenSides(r.cells) + 2 * Unvisited(r, x + Dx(d), y + Dy(d))
      == OpenSides(m1.cells) + 2 * Unvisited(m1, x + Dx(d), y + Dy(d))
    ensures Valid(r)
    ensures OpenSides(r.cells) + 2 * Unvisited(r, x, y) == OpenSides(m.cells) + 2 * Unvisited(m, x, y)
  {
    var nx, ny := x + Dx(d), y + Dy(d);
    var zero := if At(m, x, y) == 0 then 1 else 0;
    assert OpenSides(m1.cells) == OpenSides(m.cells) + 2
      && ZeroCount(m1.cells) + 1 + zero == ZeroCount(m.cells) by {
      MutualClosedTowardsZero(m, x, y, d);
      OpenPassageCounts(m, x, y, d);
    }
    assert Unvisited(m1, nx, ny) == ZeroCount(m1.cells) by {
      OpenPassageVisitsNeighbour(m, x, y, d);
    }
    assert Valid(r) && Unvisited(r, x, y) == ZeroCount(r.cells) == Unvisited(r, nx, ny) by {
      OpenPassageOpens(m, x, y, d);
      GrowsKeepsVisited(m1, r, x, y);
      GrowsKeepsVisited(m1, r, nx, ny);
    }
    BalanceArithmetic(OpenSides(m.cells), OpenSides(m1.cells), OpenSides(r.cells),
      ZeroCount(m.cells), ZeroCount(m1.cells), ZeroCount(r.cells), zero,
      Unvisited(m, x, y), Unvisited(m1, nx, ny), Unvisited(r, nx, ny), Unvisited(r, x, y));
  }

  /** The bookkeeping of `EnterBalances`: sides `s`, zero cells `z` and
      unvisited counts `u` before the carve, after it, and after the frame. */
  lemma BalanceArithmetic(s0: int, s1: int, s2: int, z0: int, z1: int, z2: int, zero: int,
                          u0: int, u1: int, u2: int, u2': int)
    requires s1 == s0 + 2 && z1 + 1 + zero == z0 && u0 == z0 - zero
    requires u1 == z1 && u2 == z2 && u2' == z2 && s2 + 2 * u2 == s1 + 2 * u1
    ensures s2 + 2 * u2' == s0 + 2 * u0
  {
  }

  /** When every cell but the one at `i` is non-zero, only that one can
      count as zero. */
  lemma {:induction false} ZeroCountOnly(s: seq<Mask>, i: int)
    requires 0 <= i < |s|
    requires forall j :: 0 <= j < |s| && j != i ==> s[j] != 0
    ensures ZeroCount(s) == if s[i] == 0 then 1 else 0
  {
    if i == 0 {
      assert forall j :: 0 <= j < |s[1..]| ==> s[1..][j] != 0 by {
        forall j | 0 <= j < |s[1..]| ensures s[1..][j] != 0 {
          assert s[1..][j] == s[j + 1];
        }
      }
      ZeroCountExtremes(s[1..]);
    } else {
      forall j | 0 <= j < |s[1..]| && j != i - 1 ensures s[1..][j] != 0 {
        assert s[1..][j] == s[j + 1];
      }
      ZeroCountOnly(s[1..], i - 1);
    }
  }

  /** Growing never creates a zero cell; the number of zero cells can only drop. */
  lemma {:induction false} ZeroCountShrinks(a: seq<Mask>, b: seq<Mask>)
    requires CellsGrow(a, b)
    ensures ZeroCount(b) <= ZeroCount(a)
  {
    if a != [] {
      assert Within(a[0], b[0]);
      forall i | 0 <= i < |a| - 1 ensures Within(a[1..][i], b[1..][i]) {
        assert Within(a[i + 1], b[i + 1]);
      }
      ZeroCountShrinks(a[1..], b[1..]);
    }
  }

  /** Carving towards a zero neighbour removes at least one zero cell. */
  lemma OpenPassageVisits(m: Maze, x: int, y: int, d: Dir)
    requires Valid(m) && InMaze(m, x, y) && InMaze(m, x + Dx(d), y + Dy(d))
    requires At(m, x + Dx(d), y + Dy(d)) == 0
    ensures ZeroCount(OpenPassage(m, x, y, d).cells) < ZeroCount(m.cells)
  {
    var r := OpenPassage(m, x, y, d);
    var nx, ny := x + Dx(d), y + Dy(d);
    var j := Index(m, nx, ny);
    AtOpenPassage(m, x, y, d, nx, ny);
    UnitSteps(d, d);
    OppositeIsFlippedBit(d);
    EnumIsOneHot();
    assert r.cells[j] != 0;
    var s := m.cells[j := r.cells[j]];
    ZeroCountUpdate(m.cells, j, r.cells[j]);
    assert ZeroCount(s) < ZeroCount(m.cells);
    forall i | 0 <= i < |s| ensures Within(s[i], r.cells[i]) {
      if i != j {
        assert Within(m.cells[i], r.cells[i]);
      }
    }
    ZeroCountShrinks(s, r.cells);
  }

  /** Where a walk along `path` from `(x, y)` ends, stepping only through
      open sides onto in-maze cells; `None` when some step meets a wall. */
  function Walk(m: Maze, x: int, y: int, path: seq<Dir>): (end: Option<(int, int)>)
    requires Valid(m) && InMaze(m, x, y)
    decreases |path|
  {
    if path == [] then Some((x, y))
    else
      var d := path[0];
      if Opens(m, x, y, d) && InMaze(m, x + Dx(d), y + Dy(d))
      then Walk(m, x + Dx(d), y + Dy(d), path[1..])
      else None
  }

  /** Cell `(a, b)` can be reached from `(x, y)` through open passages. */
  ghost predicate Reachable(m: Maze, x: int, y: int, a: int, b: int)
    requires Valid(m) && InMaze(m, x, y)
  {
    exists path :: Walk(m, x, y, path) == Some((a, b))
  }

  /** A walk that succeeds keeps succeeding, to the same cell, once bits are added. */
  lemma {:induction false} WalkGrows(m: Maze, r: Maze, x: int, y: int, p: seq<Dir>)
    requires Valid(m) && Grows(m, r) && InMaze(m, x, y)
    requires Walk(m, x, y, p).Some?
    ensures Valid(r) && Walk(r, x, y, p) == Walk(m, x, y, p)
    decreases |p|
  {
    GrowsKeeps(m, r, x, y);
    if p != [] {
      var d := p[0];
      WalkGrows(m, r, x + Dx(d), y + Dy(d), p[1..]);
    }
  }

  /** A walk that ends somewhere else leaves its start through an open
      side, so the start is visited. */
  lemma WalkLeaves(m: Maze, x: int, y: int, p: seq<Dir>, a: int, b: int)
    requires Valid(m) && InMaze(m, x, y)
    requires Walk(m, x, y, p) == Some((a, b)) && !(a == x && b == y)
    ensures At(m, x, y) != 0
  {
    assert p != [];
    assert Has(At(m, x, y), p[0]);
  }

  /** One step through an open side, then a walk from the neighbour. */
  lemma StepThenWalk(m: Maze, x: int, y: int, d: Dir, p: seq<Dir>, a: int, b: int)
    requires Valid(m) && InMaze(m, x, y) && InMaze(m, x + Dx(d), y + Dy(d)) && Opens(m, x, y, d)
    requires Walk(m, x + Dx(d), y + Dy(d), p) == Some((a, b))
    ensures Walk(m, x, y, [d] + p) == Some((a, b))
  {
    assert ([d] + p)[0] == d && ([d] + p)[1..] == p;
  }

  /** After a carve step from `(x, y)` towards `d`, and in anything grown
      from it, every cell reachable from the neighbour is reachable from
      `(x, y)`, and so is the neighbour itself. */
  lemma EnterReaches(m: Maze, x: int, y: int, d: Dir, r: Maze, a: int, b: int)
    requires Valid(m) && InMaze(m, x, y) && InMaze(m, x + Dx(d), y + Dy(d))
    requires Grows(OpenPassage(m, x, y, d), r)
    requires (a == x + Dx(d) && b == y + Dy(d)) || (Valid(r) && Reachable(r, x + Dx(d), y + Dy(d), a, b))
    ensures Valid(r) && Reachable(r, x, y, a, b)
  {
    var m1 := OpenPassage(m, x, y, d);
    OpenPassageOpens(m, x, y, d);
    GrowsKeeps(m1, r, x, y);
    var p: seq<Dir> := [];
    if !(a == x + Dx(d) && b == y + Dy(d)) {
      p :| Walk(r, x + Dx(d), y + Dy(d), p) == Some((a, b));
    }
    StepThenWalk(r, x, y, d, p, a, b);
  }

  /** Every cell reaches itself by the empty walk. */
  lemma ReachesItself(m: Maze, x: int, y: int)
    requires Valid(m) && InMaze(m, x, y)
    ensures Reachable(m, x, y, x, y)
  {
    assert Walk(m, x, y, []) == Some((x, y));
  }

  /** Reachability survives growth. */
  lemma ReachableGrows(m: Maze, r: Maze, x: int, y: int, a: int, b: int)
    requires Valid(m) && Grows(m, r) && InMaze(m, x, y) && Reachable(m, x, y, a, b)
    ensures Valid(r) && Reachable(r, x, y, a, b)
  {
    var p :| Walk(m, x, y, p) == Some((a, b));
    WalkGrows(m, r, x, y, p);
  }
}

=== FILE: optional.dfy ===
/** An optional value, for lookups and decodings that can fail. */
module Optional {
  datatype Option<+T> = None | Some(value: T)
}

=== FILE: session.dfy ===
/** One game session (`Game::Game`, `Game::initialize`, `Game::movePlayer`):
    the maze, the cell size in pixels, the player and the `CONST_MAZE`
    setting, together with the maze file the session reads and writes.

    The generator's random numbers are inputs: `drawX` and `drawY` are the
    two values `rng()` returns for the start cell, and `order` holds the
    shuffled direction list of every cell's `generateMaze` frame. */
module Session {
  import opened Directions
  import opened MazeGrid
  import opened Generator
  import opened Collision
  import opened Codec
  import opened Bytes
  import opened Optional

  datatype Game = Game(maze: Maze, cellSize: int, player: Player, constMaze: bool)

  /** What every session keeps: a well-formed grid, a positive cell size,
      and a player standing inside the cell its indices name. */
  predicate Ready(g: Game) {
    && Valid(g.maze) && 1 <= g.cellSize
    && InMaze(g.maze, g.player.cellX, g.player.cellY)
    && Agrees(g.player, g.cellSize)
  }

  /** The constructor: an all-zero grid and the player at the centre of the
      top-left cell. */
  function NewGame(width: int, height: int, size: int, constMaze: bool): (g: Game)
    requires 1 <= width && 1 <= height && width * height <= INT_MAX && 1 <= size
    ensures Ready(g)
    ensures g.maze.width == width && g.maze.height == height && g.cellSize == size
    ensures g.player.cellX == 0 && g.player.cellY == 0
    ensures forall i :: 0 <= i < |g.maze.cells| ==> g.maze.cells[i] == 0
    ensures 2.0 * g.player.x == size as real && 2.0 * g.player.y == size as real
  {
    var centre := size as real * (0 as real + 0.5);
    var g := Game(Empty(width, height), size, Player(centre, centre, 0, 0), constMaze);
    assert centre / size as real == 0.5;
    g
  }

  /** `initialize`: without `CONST_MAZE`, carve a maze from the start cell
      the two draws pick and save it; with it, load the saved maze. Returns
      the session and the maze file afterwards. */
  function Initialize(g: Game, drawX: nat, drawY: nat, order: seq<seq<Dir>>,
                      writable: bool, file: Option<seq<Byte>>): (out: (Game, Option<seq<Byte>>))
    requires Ready(g) && |order| == |g.maze.cells|
    ensures Ready(out.0)
    ensures out.0.maze.width == g.maze.width && out.0.maze.height == g.maze.height
    ensures out.0.player == g.player && out.0.cellSize == g.cellSize && out.0.constMaze == g.constMaze
    ensures !g.constMaze ==> Grows(g.maze, out.0.maze)
    ensures !g.constMaze && writable ==> out.1.Some? && Decode(out.1.value) == Some(out.0.maze)
    ensures !g.constMaze && !writable ==> out.1 == file
    ensures g.constMaze ==> out.1 == file
    ensures g.constMaze && file == None ==> out.0.maze == g.maze
    ensures g.constMaze && out.0.maze != g.maze ==> file.Some? && Decode(file.value) == Some(out.0.maze)
    ensures (g.constMaze && file.Some? && Decode(file.value).Some?
             && Decode(file.value).value.width == g.maze.width
             && Decode(file.value).value.height == g.maze.height)
      ==> out.0.maze == Decode(file.value).value
  {
    if !g.constMaze then
      var start := StartOf(g.maze, drawX, drawY);
      var r := Generate(g.maze, order, start.0, start.1);
      (g.(maze := r), Save(r, writable, file))
    else
      (g.(maze := Load(g.maze, file)), file)
  }

  /** The start cell `rng() % mazeWidth`, `rng() % mazeHeight`. */
  function StartOf(m: Maze, drawX: nat, drawY: nat): (s: (int, int))
    requires Valid(m)
    ensures InMaze(m, s.0, s.1)
    ensures s.0 <= drawX && s.1 <= drawY
    ensures drawX < m.width ==> s.0 == drawX
    ensures drawY < m.height ==> s.1 == drawY
  {
    (drawX % m.width, drawY % m.height)
  }

  /** A freshly constructed session without `CONST_MAZE`, once initialized,
      holds a perfect maze: openings are mutual and within the four bits,
      exactly `width * height - 1` passages are carved, every cell is
      reachable from the start, and every cell is visited when there are
      at least two. */
  lemma GeneratedMazeIsPerfect(width: int, height: int, size: int, drawX: nat, drawY: nat,
                               order: seq<seq<Dir>>, writable: bool, file: Option<seq<Byte>>,
                               out: (Game, Option<seq<Byte>>))
    requires 1 <= width && 1 <= height && width * height <= INT_MAX && 1 <= size
    requires |order| == width * height && Shuffles(order)
    requires out == Initialize(NewGame(width, height, size, false), drawX, drawY, order, writable, file)
    ensures Valid(out.0.maze) && Mutual(out.0.maze) && AllFourBit(out.0.maze)
    ensures OpenSides(out.0.maze.cells) == 2 * (width * height - 1)
    ensures var s := StartOf(out.0.maze, drawX, drawY);
      forall a, b | InMaze(out.0.maze, a, b) :: Reachable(out.0.maze, s.0, s.1, a, b)
    ensures 2 <= width * height ==>
      forall a, b | InMaze(out.0.maze, a, b) :: At(out.0.maze, a, b) != 0
  {
    var g := NewGame(width, height, size, false);
    assert g.maze == Empty(width, height);
    var s := StartOf(g.maze, drawX, drawY);
    var r := Generate(Empty(width, height), order, s.0, s.1);
    assert out.0.maze == r;
    GenerateIsWellFormed(width, height, order, s.0, s.1, r);
    GenerateCountsPassages(width, height, order, s.0, s.1, r);
    GenerateConnects(width, height, order, s.0, s.1, r);
    GenerateVisitsOthers(width, height, order, s.0, s.1, r);
    if 2 <= width * height {
      GenerateVisitsStart(width, height, order, s.0, s.1, r);
    }
  }

  /** A session with `CONST_MAZE` set plays exactly the maze an earlier
      session of the same dimensions generated and saved. */
  lemma ConstMazeReplaysSaved(first: Game, second: Game, drawX: nat, drawY: nat,
                              order: seq<seq<Dir>>, file: Option<seq<Byte>>,
                              drawX': nat, drawY': nat, order': seq<seq<Dir>>, writable': bool)
    requires Ready(first) && Ready(second) && |order| == |first.maze.cells|
    requires !first.constMaze && second.constMaze && |order'| == |second.maze.cells|
    requires second.maze.width == first.maze.width && second.maze.height == first.maze.height
    ensures var saved := Initialize(first, drawX, drawY, order, true, file);
      Initialize(second, drawX', drawY', order', writable', saved.1).0.maze == saved.0.maze
  {
    var saved := Initialize(first, drawX, drawY, order, true, file);
    SaveThenLoad(saved.0.maze, second.maze, file);
  }

  /** `movePlayer(dx, dy)`: the session with the player moved, for any
      offsets and any cell size. The grid is never touched and each index
      moves by at most one. In a maze with mutual openings the player stays
      in the maze; a move shorter than a cell, with cells of two pixels or
      more, also keeps the position in the cell the indices name. */
  function Step(g: Game, dx: real, dy: real): (h: Game)
    requires Valid(g.maze) && 1 <= g.cellSize && InMaze(g.maze, g.player.cellX, g.player.cellY)
    ensures h.maze == g.maze && h.cellSize == g.cellSize && h.constMaze == g.constMaze
    ensures -1 <= h.player.cellX - g.player.cellX <= 1 && -1 <= h.player.cellY - g.player.cellY <= 1
    ensures Mutual(g.maze) ==> InMaze(h.maze, h.player.cellX, h.player.cellY)
    ensures WALL_THICKNESS <= g.maze.width * g.cellSize && WALL_THICKNESS <= g.maze.height * g.cellSize ==>
      InMaze(h.maze, h.player.cellX, h.player.cellY)
    ensures Ready(g) && 2 <= g.cellSize && Small(g.cellSize, (dx, dy)) ==> Ready(h)
  {
    var q := Move(g.maze, g.cellSize, g.player, dx, dy);
    assert Mutual(g.maze) ==> InMaze(g.maze, q.cellX, q.cellY) by {
      if Mutual(g.maze) {
        MoveCrossesPassages(g.maze, g.cellSize, g.player, dx, dy);
      }
    }
    assert WALL_THICKNESS <= g.maze.width * g.cellSize && WALL_THICKNESS <= g.maze.height * g.cellSize ==>
      InMaze(g.maze, q.cellX, q.cellY) by {
      if WALL_THICKNESS <= g.maze.width * g.cellSize && WALL_THICKNESS <= g.maze.height * g.cellSize {
        MoveStaysInMaze(g.maze, g.cellSize, g.player, dx, dy);
      }
    }
    assert Ready(g) && 2 <= g.cellSize && Small(g.cellSize, (dx, dy)) ==>
      InMaze(g.maze, q.cellX, q.cellY) && Agrees(q, g.cellSize) by {
      if Ready(g) && 2 <= g.cellSize && Small(g.cellSize, (dx, dy)) {
        MoveKeepsCell(g.maze, g.cellSize, g.player, dx, dy);
      }
    }
    g.(player := q)
  }

  /** A move is smaller than a cell in each axis. */
  predicate Small(cellSize: int, step: (real, real)) {
    && -(cellSize as real) < step.0 < cellSize as real
    && -(cellSize as real) < step.1 < cellSize as real
  }

  /** The session after the moves `steps`, in order; `None` once a move is
      a cell or more long. */
  function Play(g: Game, steps: seq<(real, real)>): (h: Option<Game>)
    requires Ready(g) && 2 <= g.cellSize
    ensures h.Some? <==> forall i :: 0 <= i < |steps| ==> Small(g.cellSize, steps[i])
    ensures h.Some? ==> h.value.maze == g.maze && h.value.cellSize == g.cellSize
    decreases |steps|
  {
    if steps == [] then Some(g)
    else if !Small(g.cellSize, steps[0]) then None
    else
      var h := Play(Step(g, steps[0].0, steps[0].1), steps[1..]);
      assert forall i :: 1 <= i < |steps| ==> steps[i] == steps[1..][i - 1];
      h
  }

  /** The player never leaves the cell its indices name, whatever sequence
      of small moves it makes from the constructor's start. */
  lemma {:induction false} PlayKeepsCell(g: Game, steps: seq<(real, real)>)
    requires Ready(g) && 2 <= g.cellSize
    requires forall i :: 0 <= i < |steps| ==> Small(g.cellSize, steps[i])
    ensures Play(g, steps).Some? && Ready(Play(g, steps).value)
    decreases |steps|
  {
    if steps != [] {
      var h := Step(g, steps[0].0, steps[0].1);
      assert forall i :: 0 <= i < |steps[1..]| ==> steps[1..][i] == steps[i + 1];
      PlayKeepsCell(h, steps[1..]);
    }
  }

  /** From the constructor on, the player's position agrees with its cell
      indices after every sequence of small moves. */
  lemma NewGameKeepsCell(width: int, height: int, size: int, constMaze: bool,
                         drawX: nat, drawY: nat, order: seq<seq<Dir>>, writable: bool,
                         file: Option<seq<Byte>>, steps: seq<(real, real)>)
    requires 1 <= width && 1 <= height && width * height <= INT_MAX && 2 <= size
    requires |order| == width * height
    requires forall i :: 0 <= i < |steps| ==> Small(size, steps[i])
    ensures var g := Initialize(NewGame(width, height, size, constMaze), drawX, drawY, order, writable, file).0;
      var h := Play(g, steps);
      h.Some? && InMaze(h.value.maze, h.value.player.cellX, h.value.player.cellY)
      && Agrees(h.value.player, size)
  {
    var g := Initialize(NewGame(width, height, size, constMaze), drawX, drawY, order, writable, file).0;
    PlayKeepsCell(g, steps);
  }
}

=== FILE: settings.dfy ===
/** `readSettingsCSV`: the settings file as a map from key to value.

    The file is given as its lines, as `getline` returns them, or `None`
    when it cannot be opened. The first line is a header and is skipped;
    every later line holding a comma maps the text before its first comma
    to the text after it, and a later line overwrites an earlier one with
    the same key. */
module Settings {
  import opened Optional

  /** The position of the first comma in `line`, as `std::string::find`. */
  function FirstComma(line: string): (k: Option<nat>)
    ensures k.Some? ==> k.value < |line| && line[k.value] == ','
    ensures k.Some? ==> forall j :: 0 <= j < k.value ==> line[j] != ','
    ensures k.None? ==> forall j :: 0 <= j < |line| ==> line[j] != ','
  {
    if line == [] then None
    else if line[0] == ',' then Some(0)
    else match FirstComma(line[1..])
      case None => None
      case Some(k) => Some(k + 1)
  }

  /** The key and the value a line defines, if it holds a comma. */
  function Split(line: string): (kv: Option<(string, string)>)
    ensures kv.None? <==> ',' !in line
    ensures kv.Some? ==> line == kv.value.0 + [','] + kv.value.1 && ',' !in kv.value.0
  {
    match FirstComma(line)
    case None => None
    case Some(k) =>
      assert line == line[..k] + [','] + line[k + 1..];
      Some((line[..k], line[k + 1..]))
  }

  /** A key without commas and any value, commas included, joined by a
      comma, split back into themselves. */
  lemma SplitJoin(key: string, value: string)
    requires ',' !in key
    ensures Split(key + [','] + value) == Some((key, value))
  {
    var line := key + [','] + value;
    assert line[|key|] == ',';
    assert forall j :: 0 <= j < |key| ==> line[j] == key[j];
    var k := FirstComma(line).value;
    assert k == |key|;
    assert line[..k] == key && line[k + 1..] == value;
  }

  /** `settings[key] = value` for one line. */
  function Apply(settings: map<string, string>, line: string): (after: map<string, string>) {
    match Split(line)
    case None => settings
    case Some((key, value)) => settings[key := value]
  }

  /** The loop over the lines after the header. */
  function Fold(settings: map<string, string>, lines: seq<string>): (after: map<string, string>)
    decreases |lines|
  {
    if lines == [] then settings else Fold(Apply(settings, lines[0]), lines[1..])
  }

  /** The settings read from the lines of an open file. */
  function ReadSettings(lines: seq<string>): (settings: map<string, string>) {
    if lines == [] then map[] else Fold(map[], lines[1..])
  }

  /** The settings read from the file, which cannot be opened when `None`. */
  function ReadSettingsFile(file: Option<seq<string>>): (settings: map<string, string>)
    ensures file.None? ==> settings == map[]
    ensures file.Some? && |file.value| <= 1 ==> settings == map[]
  {
    match file
    case None => map[]
    case Some(lines) => ReadSettings(lines)
  }

  /** `line` defines `key`. */
  predicate Defines(line: string, key: string) {
    Split(line).Some? && Split(line).value.0 == key
  }

  /** The lines `i` with `lo <= i < |lines|` that define `key`, the last one
      and no later one. */
  predicate LastDefinition(lines: seq<string>, lo: int, key: string, i: int) {
    && 0 <= lo <= i < |lines| && Defines(lines[i], key)
    && forall j :: i < j < |lines| ==> !Defines(lines[j], key)
  }

  /** The loop keeps every key it already had and adds exactly the keys of
      the lines holding a comma. */
  lemma {:induction false} FoldKeys(settings: map<string, string>, lines: seq<string>, key: string)
    ensures key in Fold(settings, lines) <==>
      key in settings || exists i :: 0 <= i < |lines| && Defines(lines[i], key)
    decreases |lines|
  {
    if lines != [] {
      FoldKeys(Apply(settings, lines[0]), lines[1..], key);
      if key in Fold(settings, lines) && key !in settings {
        if key !in Apply(settings, lines[0]) {
          var i :| 0 <= i < |lines[1..]| && Defines(lines[1..][i], key);
          assert Defines(lines[i + 1], key);
        } else {
          assert Defines(lines[0], key);
        }
      }
      if exists i :: 0 <= i < |lines| && Defines(lines[i], key) {
        var i :| 0 <= i < |lines| && Defines(lines[i], key);
        if i > 0 {
          assert Defines(lines[1..][i - 1], key);
        }
      }
    }
  }

  /** A key of the result whose last line is `i` takes that line's value;
      a key no line defines keeps the value it had. */
  lemma {:induction false} FoldValues(settings: map<string, string>, lines: seq<string>, key: string)
    ensures forall i | LastDefinition(lines, 0, key, i) ::
      key in Fold(settings, lines) && Some((key, Fold(settings, lines)[key])) == Split(lines[i])
    ensures (forall i :: 0 <= i < |lines| ==> !Defines(lines[i], key)) && key in settings ==>
      key in Fold(settings, lines) && Fold(settings, lines)[key] == settings[key]
    decreases |lines|
  {
    if lines != [] {
      var rest := lines[1..];
      var next := Apply(settings, lines[0]);
      FoldValues(next, rest, key);
      FoldKeys(next, rest, key);
      forall i | LastDefinition(lines, 0, key, i)
        ensures key in Fold(settings, lines) && Some((key, Fold(settings, lines)[key])) == Split(lines[i])
      {
        if i > 0 {
          assert LastDefinition(rest, 0, key, i - 1) by {
            forall j | i - 1 < j < |rest| ensures !Defines(rest[j], key) {
              assert rest[j] == lines[j + 1];
            }
          }
        } else {
          assert forall j :: 0 <= j < |rest| ==> !Defines(rest[j], key) by {
            forall j | 0 <= j < |rest| ensures !Defines(rest[j], key) {
              assert rest[j] == lines[j + 1];
            }
          }
        }
      }
      if (forall i :: 0 <= i < |lines| ==> !Defines(lines[i], key)) && key in settings {
        assert forall j :: 0 <= j < |rest| ==> rest[j] == lines[j + 1];
      }
    }
  }

  /** The result's keys are exactly the keys of the lines after the header
      that hold a comma. */
  lemma ReadSettingsKeys(lines: seq<string>, key: string)
    ensures key in ReadSettings(lines) <==>
      exists i :: 1 <= i < |lines| && Defines(lines[i], key)
  {
    if lines != [] {
      FoldKeys(map[], lines[1..], key);
      if exists i :: 1 <= i < |lines| && Defines(lines[i], key) {
        var i :| 1 <= i < |lines| && Defines(lines[i], key);
        assert lines[1..][i - 1] == lines[i];
      }
      if exists i :: 0 <= i < |lines[1..]| && Defines(lines[1..][i], key) {
        var i :| 0 <= i < |lines[1..]| && Defines(lines[1..][i], key);
        assert lines[1..][i] == lines[i + 1];
      }
    }
  }

  /** When a key repeats, the value of its last line after the header wins. */
  lemma ReadSettingsLastWins(lines: seq<string>, key: string, i: int)
    requires LastDefinition(lines, 1, key, i)
    ensures key in ReadSettings(lines)
    ensures Split(lines[i]) == Some((key, ReadSettings(lines)[key]))
  {
    var rest := lines[1..];
    FoldValues(map[], rest, key);
    assert LastDefinition(rest, 0, key, i - 1) by {
      forall j | i - 1 < j < |rest| ensures !Defines(rest[j], key) {
        assert rest[j] == lines[j + 1];
      }
    }
  }

  /** Processing two runs of lines is processing the first, then the second. */
  lemma {:induction false} FoldAppend(settings: map<string, string>, a: seq<string>, b: seq<string>)
    ensures Fold(settings, a + b) == Fold(Fold(settings, a), b)
    decreases |a|
  {
    if a != [] {
      assert (a + b)[0] == a[0] && (a + b)[1..] == a[1..] + b;
      FoldAppend(Apply(settings, a[0]), a[1..], b);
      assert Fold(settings, a + b) == Fold(Apply(settings, a[0]), a[1..] + b);
      assert Fold(settings, a) == Fold(Apply(settings, a[0]), a[1..]);
    } else {
      assert a + b == b;
    }
  }

  /** The header is discarded, whatever it holds. */
  lemma HeaderIgnored(header: string, header': string, rest: seq<string>)
    ensures ReadSettings([header] + rest) == ReadSettings([header'] + rest)
  {
    assert ([header] + rest)[1..] == rest == ([header'] + rest)[1..];
  }

  /** A line after the header without a comma contributes nothing. */
  lemma LineWithoutCommaIgnored(lines: seq<string>, i: int)
    requires 1 <= i < |lines| && ',' !in lines[i]
    ensures ReadSettings(lines) == ReadSettings(lines[..i] + lines[i + 1..])
  {
    var a, b := lines[1..i], lines[i + 1..];
    assert lines[1..] == a + [lines[i]] + b;
    assert (lines[..i] + lines[i + 1..])[1..] == a + b;
    FoldAppend(map[], a + [lines[i]], b);
    FoldAppend(map[], a, [lines[i]]);
    FoldAppend(map[], a, b);
  }

  /** A settings file of one header line and `key,value` lines with distinct
      keys reads back as exactly those pairs. */
  lemma WrittenSettingsReadBack(header: string, pairs: seq<(string, string)>)
    requires forall i :: 0 <= i < |pairs| ==> ',' !in pairs[i].0
    requires forall i, j :: 0 <= i < j < |pairs| ==> pairs[i].0 != pairs[j].0
    ensures ReadSettings([header] + Lines(pairs)).Keys == set i | 0 <= i < |pairs| :: pairs[i].0
    ensures forall i :: 0 <= i < |pairs| ==>
      pairs[i].0 in ReadSettings([header] + Lines(pairs)) &&
      ReadSettings([header] + Lines(pairs))[pairs[i].0] == pairs[i].1
  {
    forall i | 0 <= i < |pairs|
      ensures pairs[i].0 in ReadSettings([header] + Lines(pairs))
      ensures ReadSettings([header] + Lines(pairs))[pairs[i].0] == pairs[i].1
    {
      PairReadBack(header, pairs, i);
    }
    forall key | key in ReadSettings([header] + Lines(pairs))
      ensures exists i :: 0 <= i < |pairs| && pairs[i].0 == key
    {
      NoOtherKeys(header, pairs, key);
    }
  }

  /** Every key of such a file is the key of one of its pairs. */
  lemma NoOtherKeys(header: string, pairs: seq<(string, string)>, key: string)
    requires forall i :: 0 <= i < |pairs| ==> ',' !in pairs[i].0
    requires key in ReadSettings([header] + Lines(pairs))
    ensures exists i :: 0 <= i < |pairs| && pairs[i].0 == key
  {
    var lines := [header] + Lines(pairs);
    ReadSettingsKeys(lines, key);
    var i :| 1 <= i < |lines| && Defines(lines[i], key);
    assert lines[i] == Lines(pairs)[i - 1];
    SplitJoin(pairs[i - 1].0, pairs[i - 1].1);
  }

  /** The `i`-th pair of such a file is its key's last definition. */
  lemma PairReadBack(header: string, pairs: seq<(string, string)>, i: int)
    requires forall i :: 0 <= i < |pairs| ==> ',' !in pairs[i].0
    requires forall i, j :: 0 <= i < j < |pairs| ==> pairs[i].0 != pairs[j].0
    requires 0 <= i < |pairs|
    ensures pairs[i].0 in ReadSettings([header] + Lines(pairs))
    ensures ReadSettings([header] + Lines(pairs))[pairs[i].0] == pairs[i].1
  {
    var lines := [header] + Lines(pairs);
    var key := pairs[i].0;
    SplitJoin(key, pairs[i].1);
    assert lines[i + 1] == Lines(pairs)[i];
    forall j | i + 1 < j < |lines| ensures !Defines(lines[j], key) {
      assert lines[j] == Lines(pairs)[j - 1];
      SplitJoin(pairs[j - 1].0, pairs[j - 1].1);
    }
    ReadSettingsLastWins(lines, key, i + 1);
  }

  /** The lines `key,value` of the pairs. */
  function Lines(pairs: seq<(string, string)>): (lines: seq<string>)
    ensures |lines| == |pairs|
    ensures forall i :: 0 <= i < |pairs| ==> lines[i] == pairs[i].0 + [','] + pairs[i].1
  {
    seq(|pairs|, i requires 0 <= i < |pairs| => pairs[i].0 + [','] + pairs[i].1)
  }
}
